=== FILE: README.md ===
# Device key registration: a Dafny model

The system provisions a per-device secret. Each mobile device keeps an RSA key pair in its
platform key store and sends the public key to a registration server. The server encrypts a
fixed secret to that key and replies, and only the device can decrypt the reply.

The two platforms export their keys in different formats:

- **Android** sends the base64 of an X.509 SubjectPublicKeyInfo.
- **iOS** sends `IOS_RAW:` followed by the base64 of the bare PKCS #1 RSAPublicKey.

The server tells the two apart by that tag. For iOS it builds the SubjectPublicKeyInfo itself in
DER and armours either form as a PEM `PUBLIC KEY`. It then encrypts with PKCS #1 v1.5 padding.

On decryption the platforms also differ:

- **Android** tries six cipher transformations in a fixed order, PKCS #1 v1.5 first.
- **iOS** uses PKCS #1 v1.5 only.

## What is modelled

The project has one module per concern:

| file | module | models |
|---|---|---|
| `wrappers.dfy` | `Wrappers`, `Bytes` | `Option`, `Result`, `Outcome`; octets |
| `base64.dfy` | `Base64` | the padded encoder of section 4 of RFC 4648, Node's lenient decoder, a canonical decoder |
| `der.dfy` | `Der` | the server's hand-written DER for SubjectPublicKeyInfo (section 4.1.2.7 of RFC 5280, section 2.3.1 of RFC 3279), and a reference DER reader with minimal length octets (section 8.1.3 and section 10.1 of X.690) |
| `pem.dfy` | `Pem` | the 64-column PEM armour (RFC 7468) and its inverse |
| `key_format.dfy` | `KeyFormat` | the `IOS_RAW:` marker shared by the iOS app and the server |
| `server.dfy` | `Server` | `androidBase64ToPem`, `iosRawToPem`, the `/register` handler |
| `android_key_helper.dfy` | `AndroidKeyHelper` | `SecureKeyHelper`: `deleteKey`, `ensureKeyPairAndGetPublicKeyBase64`, `descriptBase64` |
| `decimal.dfy` | `Decimal` | the decimal text Swift interpolation writes for an `OSStatus` |
| `ios_keychain.dfy` | `IosKeychain` | `AppDelegate`: method dispatch, get-or-generate, export, delete, decrypt, `KeychainError` |
| `end_to_end.dfy` | `EndToEnd` | the flow across the three programs |

The effects of the key stores are modelled as pure state:

- **Android KeyStore:** a map from alias to key pair.
- **iOS keychain:**
  - a map from key class to key reference;
  - a map from key class to the failure status the keychain reports for that class instead of serving it.

Everything the programs ask of their crypto libraries is a parameter of the model:

- RSA encryption and decryption;
- key generation;
- the export of a key's external representation;
- UTF-8 decoding.

The lemmas that connect the programs assume that the device's PKCS #1 v1.5 decryption turns
the server's ciphertext back into the secret's octets. The iOS lemma also assumes that UTF-8
decoding turns those octets into the secret; on Android the text returned is whatever the
decoding parameter makes of them.

The server's length octets (`server_debug.js:40-46`, `:54-60`) follow a three-tier rule:

- one octet below 128;
- `81 n` below 256;
- `82 hi lo` otherwise.

`Der.SourceLengthIsDer` proves that this rule equals minimal DER for every length up to 65535.
`Der.SourceLengthTruncates` shows what happens at 65536: the masks write `82 00 00`, and no DER
reader accepts that. The server does not refuse keys this long; its masks truncate silently.

## Model

| member | source | states |
|---|---|---|
| Base64.Encode | server_debug.js:17 | the encoding is empty exactly for no octets, and otherwise holds at least one four-character group; its exact length is `Base64.EncodeLength`, its padding `Base64.EncodePadding` |
| Base64.EncodePadding | server_debug.js:17 | a non-empty encoding ends in `=` exactly when the octet count is not a multiple of three |
| Base64.LenientDecode | server_debug.js:16 | never fails; yields three octets per four legal characters before the first `=`, rounded down, so at most three quarters of the text's length |
| Base64.LenientDecodeEncode | server_debug.js:16-17 | Node's base64 decoder gives back every octet string from its padded encoding |
| Base64.DecodeIsInverse | android/app/src/main/kotlin/com/example/secure_teste/SecureKeyHelper.kt:108 | the canonical decoder accepts exactly the encoder's outputs, and returns the encoded octets; both directions |
| Base64.EncodeLength | server_debug.js:17 | the encoding takes four characters per three octets, counting a partial final group as a whole one |
| Base64.EncodeAlphabet | ios/Runner/AppDelegate.swift:138-139 | an encoding holds no line feed and no colon, so a key text cannot forge the `IOS_RAW:` marker |
| Der.SourceLengthOctets | server_debug.js:40-46 | one octet exactly for lengths below 128; up to 65535 the octets are the minimal DER length octets |
| Der.SpkiFromRaw | server_debug.js:24-62 | the construction starts with the SEQUENCE tag and ends with the 15-octet AlgorithmIdentifier, the BIT STRING header (its tag, the server's length octets and the zero unused-bits octet) and the raw key, in that order |
| Der.SourceLengthIsDer | server_debug.js:37-60 | up to 65535, the server's three-tier length rule writes exactly the minimal DER length octets |
| Der.SourceLengthTruncates | server_debug.js:45-59 | at 65536 the masks write `82 00 00`; a DER reader rejects it, and read as a number it is 0 |
| Der.AlgorithmIdentifierIsDer | server_debug.js:29-34 | the 15-octet constant is the DER of SEQUENCE { OID 1.2.840.113549.1.1.1, NULL } |
| Der.SpkiFromRawIsDer | server_debug.js:36-62 | for raw keys up to 65515 octets the construction is SEQUENCE { AlgorithmIdentifier, BIT STRING { 0 unused bits, raw } } |
| Der.ParseSpkiFromRaw | server_debug.js:24-62 | for raw keys up to 65515 octets, a DER reader of SubjectPublicKeyInfo gets the raw key back out of the server's construction |
| Der.SpkiIsUnique | server_debug.js:24-62 | for raw keys up to 65515 octets, every rsaEncryption SubjectPublicKeyInfo a DER reader accepts for a raw key is, octet for octet, the one the server builds |
| Der.ParsedLengthIsMinimal | server_debug.js:40-60 | the length octets the reader accepts are the minimal encoding of the length it reports |
| Pem.Lines | server_debug.js:17 | the global match finds no line exactly when the text is empty, the case where `match` returns `null` |
| Pem.LinesShape | server_debug.js:17 | `/.{1,64}/g` cuts the text into lines of 1 to 64 characters, all but the last exactly 64, which together spell the text |
| Pem.Armor | server_debug.js:17-18 | armouring fails exactly for empty DER, because `match` finds nothing; the result runs from the PUBLIC KEY header to a line feed and the footer |
| Pem.DearmorArmor | server_debug.js:66-67 | removing the armour and the line breaks gives back the DER that was armoured |
| Server.AndroidBase64ToPem | server_debug.js:15-19 | succeeds exactly when the lenient decode is non-empty; the PEM then carries exactly the decoded octets |
| Server.IosRawToPem | server_debug.js:24-68 | for raw keys up to 65515 octets, the PEM holds a SubjectPublicKeyInfo from which a DER reader recovers the raw key |
| KeyFormat.TaggedKey | server_debug.js:128-130 | a key text made of the marker and a body is recognised as iOS, and removing eight characters gives back the body |
| Server.KeyToPem | server_debug.js:127-140 | a tagged key always converts, and, when the text after the tag decodes to at most 65515 octets, its SubjectPublicKeyInfo wraps them; an untagged key converts exactly when it decodes to something |
| Server.Register | server_debug.js:113-172 | 400 exactly for a falsy key; a truthy non-string gives 500; a string key registers exactly when conversion and PKCS #1 v1.5 encryption succeed; the reply decodes to that ciphertext |
| Server.SecretBytesAreAscii | server_debug.js:9 | the secret is 18 characters long, and the encrypted octets are their 18 ASCII codes |
| Server.RegisterUsesOnlyPkcs1 | server_debug.js:148-152 | two encryptors that agree on PKCS #1 v1.5 give the same response, whatever else they do |
| AndroidKeyHelper.DeleteKey | android/app/src/main/kotlin/com/example/secure_teste/SecureKeyHelper.kt:20-30 | the alias is gone unless the keystore throws, in which case nothing changes; other aliases are untouched and no error escapes |
| AndroidKeyHelper.DeleteKeyIsIdempotent | android/app/src/main/kotlin/com/example/secure_teste/SecureKeyHelper.kt:20-30 | deleting after a delete changes nothing, even when the keystore fails |
| AndroidKeyHelper.EnsureKeyPairAndGetPublicKeyBase64 | android/app/src/main/kotlin/com/example/secure_teste/SecureKeyHelper.kt:67-80 | generates only when the alias is absent, and a generation failure leaves the store unchanged; the returned text decodes to the stored public key's DER |
| AndroidKeyHelper.EnsureIsIdempotent | android/app/src/main/kotlin/com/example/secure_teste/SecureKeyHelper.kt:67-80 | a second call returns the same key and keeps the store, whatever the generator would give |
| AndroidKeyHelper.CipherConfigsOrder | android/app/src/main/kotlin/com/example/secure_teste/SecureKeyHelper.kt:97-106 | six distinct transformations, the first being PKCS #1 v1.5 |
| AndroidKeyHelper.TryConfigs | android/app/src/main/kotlin/com/example/secure_teste/SecureKeyHelper.kt:115-131 | attempts are a prefix of the list, each failing one before the last; a plaintext comes from the last attempt; no plaintext means every configuration failed |
| AndroidKeyHelper.TryConfigsStopsAtFirstSuccess | android/app/src/main/kotlin/com/example/secure_teste/SecureKeyHelper.kt:115-131 | the trial stops exactly at the first configuration that decrypts, having attempted all before it and none after |
| AndroidKeyHelper.DescriptBase64 | android/app/src/main/kotlin/com/example/secure_teste/SecureKeyHelper.kt:83-134 | a missing key fails before anything is decoded or attempted, then undecodable base64 fails; "no configuration worked" exactly when all six fail; success returns the UTF-8 text of the first plaintext |
| AndroidKeyHelper.DescriptBase64FindsConfig | android/app/src/main/kotlin/com/example/secure_teste/SecureKeyHelper.kt:97-134 | when configuration k is the first that decrypts, exactly configurations 0..k are attempted and its plaintext is returned |
| IosKeychain.ExportPublicKey | ios/Runner/AppDelegate.swift:125-143 | succeeds exactly when the external representation exists; the text carries the marker, and its remainder decodes to those octets |
| IosKeychain.CopyMatching | ios/Runner/AppDelegate.swift:80 | success exactly when an item is returned, which is exactly when the class is served and present; not-found exactly when it is served and absent; a fault status otherwise |
| IosKeychain.DeleteItem | ios/Runner/AppDelegate.swift:227 | success or not-found exactly when the class is served, success exactly when its item existed; a served delete removes that class's item and nothing else; a fault changes nothing |
| IosKeychain.GetExistingPublicKey | ios/Runner/AppDelegate.swift:70-89 | `nil` exactly when no public key item exists; any other failing status is thrown with that status; a found key is exported |
| IosKeychain.GenerateRSAKeyPair | ios/Runner/AppDelegate.swift:91-123 | the four failure points (access control, key creation, public key, export) give their errors; a created private key stays in the keychain even if the public key cannot be obtained or exported |
| IosKeychain.HandleGetPublicKey | ios/Runner/AppDelegate.swift:48-68 | a failed lookup reports KEY_ERROR with that lookup's error and generates nothing; an existing exportable key is returned and nothing changes; with no key, the keychain is the one generation leaves, a key is returned exactly when generation yields one and it is the export of the generated public key, stored or not, and a generation or export failure is reported as KEY_ERROR with that error's description; a returned key is tagged, and it is the stored public key when one is stored |
| IosKeychain.GetPublicKeyIsStable | ios/Runner/AppDelegate.swift:48-89 | once a findable key has been handed out, the next call returns the same text and changes nothing |
| IosKeychain.UnstoredPublicKeyIsRegenerated | ios/Runner/AppDelegate.swift:103-122 | when the keychain does not keep the generated public key, the next lookup finds none |
| IosKeychain.DeleteKeyPair | ios/Runner/AppDelegate.swift:218-244 | succeeds exactly when neither deletion fails with a status other than not-found; success leaves no items; a private-key failure stops before the public key |
| IosKeychain.DeleteKeyPairIsIdempotent | ios/Runner/AppDelegate.swift:218-244 | after a successful delete, a second delete succeeds and changes nothing |
| IosKeychain.DeleteThenRegenerate | ios/Runner/AppDelegate.swift:185-203 | after a successful delete, the lookup finds no public key and decryption fails with status -25300 |
| IosKeychain.HandleDeleteKey | ios/Runner/AppDelegate.swift:205-216 | `nil` exactly when the delete succeeds, otherwise DELETE_ERROR with the error's description |
| IosKeychain.DecryptSecret | ios/Runner/AppDelegate.swift:147-203 | errors come in the order private key, base64, decryption, UTF-8; when all four steps succeed the result is the text of the PKCS #1 v1.5 plaintext, and only then |
| IosKeychain.HandleDecryptSecret | ios/Runner/AppDelegate.swift:147-183 | a keychain fault or a missing private key gives DECRYPT_ERROR with "Failed to retrieve private key from keychain" and the status (-25300 when missing); bad base64 gives "Invalid base64 encrypted data"; a failed decryption gives "Failed to decrypt data: " and its cause, and undecodable plaintext "Failed to decode decrypted data as UTF-8 string"; the reply is a value exactly when the key is there, the text is base64, PKCS #1 v1.5 decryption succeeds and the plaintext is UTF-8, and the value is that text |
| IosKeychain.HandleDecryptSecretCatches | ios/Runner/AppDelegate.swift:145-183 | the reply is the text `decryptSecret`'s steps produce, or, for the error they throw, DECRYPT_ERROR with "Failed to decrypt secret: " and that error's description |
| IosKeychain.DecryptUsesOnlyPkcs1 | ios/Runner/AppDelegate.swift:161-166 | two decryptors that agree on PKCS #1 v1.5 give the same outcome |
| IosKeychain.HandleKeyMethod | ios/Runner/AppDelegate.swift:25-41 | not-implemented exactly for unknown names, which change nothing; decryptSecret never changes the keychain, reports INVALID_ARGUMENTS exactly when the arguments are not a dictionary whose `encryptedSecret` entry is a string, and otherwise decrypts that string |
| IosKeychain.StatusTextIsInjective | ios/Runner/AppDelegate.swift:272-281 | distinct statuses give distinct error messages |
| EndToEnd.EncodingIsUntagged | server_debug.js:128 | no base64 text starts with the iOS marker, so Android keys always take the Android branch |
| EndToEnd.SameKeySamePem | server_debug.js:127-140 | an iOS raw key, and the SubjectPublicKeyInfo of the same key sent Android-style, give the same PEM |
| EndToEnd.AndroidKeyReachesServer | android/app/src/main/kotlin/com/example/secure_teste/SecureKeyHelper.kt:76-79 | the key text Android returns takes the Android branch, and the server's PEM carries the keystore's DER |
| EndToEnd.IosKeyReachesServer | ios/Runner/AppDelegate.swift:137-142 | the key text iOS exports takes the iOS branch, and, for raw keys up to 65515 octets, the SubjectPublicKeyInfo in the PEM wraps the keychain's raw key |
| EndToEnd.AndroidRecoversSecret | android/app/src/main/kotlin/com/example/secure_teste/SecureKeyHelper.kt:97-124 | whenever the server registers a key whose private half decrypts its PKCS #1 v1.5 ciphertext, Android decrypts the reply on its first attempt, PKCS #1 v1.5, and returns the UTF-8 decoding of the secret's octets (the decoder is a parameter) |
| EndToEnd.FourthTransformationIsFourthAttempt | android/app/src/main/kotlin/com/example/secure_teste/SecureKeyHelper.kt:98-106 | a ciphertext the first three transformations reject and the fourth decrypts is reached after exactly the first four attempts, in order |
| EndToEnd.IosRecoversSecret | ios/Runner/AppDelegate.swift:147-175 | whenever the server registers a key whose private half decrypts its PKCS #1 v1.5 ciphertext, the decryptSecret call on the reply returns the secret and leaves the keychain as it was |

## Left out

- `MainActivity.kt`, the Android side of the method channel, is not part of this model.
- Not modelled: logging, the diagnostic `testEncryptionConfigs` and its endpoint, Express and body-parser set-up, and the `debug` member of the JSON reply. Only the status and the `encryptedBase64` member of `/register`'s response are modelled.
- RSA itself is not modelled: encryption, decryption and key generation are function parameters. The lemmas that connect the programs assume that decryption turns the server's ciphertext back into the secret's octets.
- Android keystore internals are not modelled: StrongBox, `KeyGenParameterSpec`, certificates. `createPairKey` is represented by its result, a key pair or the message it throws.
- The biometric prompt and access control on iOS are not modelled separately. A cancelled or failed authentication is one of the failures of the decryption parameter.
- UTF-8 decoding on both platforms is a parameter.
- AndroidKeyHelper.DescriptBase64: decodes the ciphertext canonically. It refuses some text that `android.util.Base64.decode` accepts, such as embedded whitespace or missing padding. The server always sends canonical text.
- IosKeychain.DecryptSecret: decodes the ciphertext canonically. `Data(base64Encoded:)` may accept some non-canonical padding bits that this model refuses. The server always sends canonical text.
- IosKeychain.GetExistingPublicKey: assumes a keychain never reports success without an item. The source's branch that throws `failedToRetrieveKey(0)` in that case is unreachable in the model.
- The keychain reports one status per key class, for both queries and deletes.
- The keychain holds at most one item per key class. Duplicate items under one tag are not modelled: generating over an existing private key replaces it.
- Server.IosRawToPem: promises a parseable SubjectPublicKeyInfo only for raw keys up to 65515 octets. Above that, the 16-bit length octets truncate, as `Der.SourceLengthTruncates` shows; the source does not refuse such keys, so neither does the model.
- The Android decryption parameter does not encode the JCA defaults of each transformation. For instance, `RSA/ECB/OAEPPadding` defaults to SHA-1 with MGF1-SHA-1, so in practice it decrypts what `RSA/ECB/OAEPWithSHA-1AndMGF1Padding` decrypts; the model lets the parameter answer each transformation independently.
- AndroidKeyHelper.EnsureKeyPairAndGetPublicKeyBase64: exceptions from `KeyStore.getInstance(..).load(null)` (`SecureKeyHelper.kt:68`) and a missing certificate at `getCertificate(..).publicKey` (`:76`) are not modelled; the keystore always loads and a stored alias always has its certificate.
- AndroidKeyHelper.DescriptBase64: exceptions from `load(null)` (`SecureKeyHelper.kt:86`) and from `getKey` (`:89`) are not modelled; the lookup only distinguishes a present key from a missing one.
- Base64.LenientDecode: treats every character above U+00FF as illegal and skips it. Node's decoder may instead read the low octet of each UTF-16 code unit, so that 'Ł' (U+0141) would count as 'A'. Keys from both devices are plain ASCII base64.
- Flutter's asynchronous result callbacks are modelled as return values; threads and concurrent calls are not modelled.

=== FILE: android_key_helper.dfy ===
/** The Android key helper (`SecureKeyHelper.kt`): get-or-create of the device key pair under
    a fixed keystore alias, an exception-swallowing delete, and the decryption that tries six
    cipher transformations in a fixed order until one succeeds. The keystore is a map from
    alias to key pair; the cipher engine and the UTF-8 decoder are parameters. */
module AndroidKeyHelper {
  import opened Wrappers
  import opened Bytes
  import Base64

  const KeyAlias: string := "app_device_key"

  /** A key pair of the keystore: a handle on the private half, whose octets never leave the
      keystore, and the X.509 SubjectPublicKeyInfo encoding of the public half. */
  datatype KeyPair = KeyPair(privateKey: nat, publicKeyDer: seq<byte>)

  datatype KeyStore = KeyStore(entries: map<string, KeyPair>)

  /** Every alias other than the helper's own is bound as before. */
  predicate OthersUnchanged(before: KeyStore, after: KeyStore)
  {
    after.entries - {KeyAlias} == before.entries - {KeyAlias}
  }

  // ---------------------------------------------------------------------------------------
  // Key lifecycle
  // ---------------------------------------------------------------------------------------

  /** `deleteKey`: removes the alias when present. When the keystore throws (`storeFails`),
      the exception is logged and swallowed and nothing changes; no error ever reaches the
      caller. */
  function DeleteKey(store: KeyStore, storeFails: bool): (r: KeyStore)
    ensures !storeFails ==> KeyAlias !in r.entries
    ensures storeFails ==> r == store
    ensures KeyAlias !in store.entries ==> r == store
    ensures OthersUnchanged(store, r)
  {
    if storeFails then store
    else if KeyAlias in store.entries then KeyStore(store.entries - {KeyAlias})
    else store
  }

  /** The state after `ensureKeyPairAndGetPublicKeyBase64` and what it returns or throws. */
  datatype Ensured = Ensured(store: KeyStore, publicKey: Result<string, string>)

  /** `ensureKeyPairAndGetPublicKeyBase64`: generates a key pair only when the alias is
      absent (`generate` is what `createPairKey` produces, or the message it throws), then
      returns the base64 of the stored public key. */
  function EnsureKeyPairAndGetPublicKeyBase64(store: KeyStore, generate: Result<KeyPair, string>): (r: Ensured)
    ensures KeyAlias in store.entries ==> r.store == store && r.publicKey.Success?
    ensures KeyAlias !in store.entries ==>
      && (r.publicKey.Success? <==> generate.Success?)
      && (generate.Success? ==> r.store.entries == store.entries[KeyAlias := generate.value])
      && (generate.Failure? ==> r == Ensured(store, Failure(generate.error)))
    ensures r.publicKey.Success? ==>
      KeyAlias in r.store.entries && Base64.Decode(r.publicKey.value) == Some(r.store.entries[KeyAlias].publicKeyDer)
    ensures OthersUnchanged(store, r.store)
  {
    var store' :=
      if KeyAlias in store.entries then store
      else if generate.Success? then KeyStore(store.entries[KeyAlias := generate.value])
      else store;
    if KeyAlias !in store.entries && generate.Failure? then Ensured(store, Failure(generate.error))
    else
      var der := store'.entries[KeyAlias].publicKeyDer;
      Base64.DecodeEncode(der);
      Ensured(store', Success(Base64.Encode(der)))
  }

  // ---------------------------------------------------------------------------------------
  // Ordered cipher negotiation
  // ---------------------------------------------------------------------------------------

  /** The six transformations `descriptBase64` knows. */
  datatype CipherConfig =
    | EcbPkcs1
    | EcbOaep
    | EcbOaepSha256
    | EcbOaepSha1
    | NoneOaepSha1
    | NoneOaepSha256
  {
    /** The JCA transformation name given to `Cipher.getInstance`. */
    function Transformation(): string
    {
      match this
      case EcbPkcs1 => "RSA/ECB/PKCS1Padding"
      case EcbOaep => "RSA/ECB/OAEPPadding"
      case EcbOaepSha256 => "RSA/ECB/OAEPWithSHA-256AndMGF1Padding"
      case EcbOaepSha1 => "RSA/ECB/OAEPWithSHA-1AndMGF1Padding"
      case NoneOaepSha1 => "RSA/None/OAEPWithSHA1AndMGF1Padding"
      case NoneOaepSha256 => "RSA/None/OAEPWithSHA256AndMGF1Padding"
    }
  }

  /** The order of trial: PKCS #1 v1.5 first, the padding the server uses. */
  const CipherConfigs: seq<CipherConfig> :=
    [EcbPkcs1, EcbOaep, EcbOaepSha256, EcbOaepSha1, NoneOaepSha1, NoneOaepSha256]

  /** `Cipher.getInstance`, `init(DECRYPT_MODE, privateKey)` and `doFinal` for one
      transformation and one private-key handle: the plaintext, or `None` when any of the
      three throws. */
  type Decryptor = (CipherConfig, nat, seq<byte>) -> Option<seq<byte>>

  /** `String(plain, StandardCharsets.UTF_8)`, which replaces malformed input and never
      throws. */
  type Utf8Decoder = seq<byte> -> string

  /** The configurations tried, in order, and the plaintext of the last one if it
      succeeded. */
  datatype Trial = Trial(attempts: seq<CipherConfig>, plaintext: Option<seq<byte>>)

  /** The loop of `descriptBase64`: tries each configuration on the same ciphertext,
      swallows each failure, and stops at the first success. */
  function TryConfigs(configs: seq<CipherConfig>, key: nat, encrypted: seq<byte>, decrypt: Decryptor): (t: Trial)
    ensures |t.attempts| <= |configs| && t.attempts == configs[..|t.attempts|]
    ensures forall i :: 0 <= i < |t.attempts| - 1 ==> decrypt(t.attempts[i], key, encrypted).None?
    ensures t.plaintext.Some? ==> |t.attempts| > 0 && decrypt(Last(t.attempts), key, encrypted) == t.plaintext
    ensures t.plaintext.None? ==>
      t.attempts == configs && forall i :: 0 <= i < |configs| ==> decrypt(configs[i], key, encrypted).None?
    decreases |configs|
  {
    if |configs| == 0 then Trial([], None)
    else match decrypt(configs[0], key, encrypted)
      case Some(plain) => Trial([configs[0]], Some(plain))
      case None =>
        var rest := TryConfigs(configs[1..], key, encrypted, decrypt);
        Trial([configs[0]] + rest.attempts, rest.plaintext)
  }

  datatype DecryptError =
    | PrivateKeyNotFound
    | BadBase64
    | NoConfigurationWorked
  {
    /** The message of the exception that leaves `descriptBase64`. */
    function Message(): string
    {
      match this
      case PrivateKeyNotFound => "Private key not found - ensure key pair exists and device is registered"
      case BadBase64 => "bad base-64"
      case NoConfigurationWorked => "Failed to decrypt with any cipher configuration"
    }
  }

  /** The configurations attempted by one call of `descriptBase64` and its outcome. */
  datatype Decryption = Decryption(attempts: seq<CipherConfig>, result: Result<string, DecryptError>)

  /** `descriptBase64`: looks up the private key, decodes the ciphertext once, then runs the
      ordered trial and returns the UTF-8 text of the first plaintext. */
  function DescriptBase64(store: KeyStore, encryptedBase64: string, decrypt: Decryptor, utf8: Utf8Decoder): (r: Decryption)
    ensures KeyAlias !in store.entries ==> r == Decryption([], Failure(PrivateKeyNotFound))
    ensures KeyAlias in store.entries && Base64.Decode(encryptedBase64).None? ==> r == Decryption([], Failure(BadBase64))
    ensures r.result == Failure(NoConfigurationWorked) <==>
      && KeyAlias in store.entries
      && Base64.Decode(encryptedBase64).Some?
      && forall i :: 0 <= i < |CipherConfigs| ==>
           decrypt(CipherConfigs[i], store.entries[KeyAlias].privateKey, Base64.Decode(encryptedBase64).value).None?
    ensures r.result == Failure(NoConfigurationWorked) ==> r.attempts == CipherConfigs
    ensures KeyAlias in store.entries && Base64.Decode(encryptedBase64).Some? && r.result.Failure? ==>
      r.result == Failure(NoConfigurationWorked)
    ensures r.result.Success? ==>
      && KeyAlias in store.entries
      && Base64.Decode(encryptedBase64).Some?
      && 0 < |r.attempts| <= |CipherConfigs|
      && r.attempts == CipherConfigs[..|r.attempts|]
      && (forall i :: 0 <= i < |r.attempts| - 1 ==>
            decrypt(r.attempts[i], store.entries[KeyAlias].privateKey, Base64.Decode(encryptedBase64).value).None?)
      && decrypt(Last(r.attempts), store.entries[KeyAlias].privateKey, Base64.Decode(encryptedBase64).value).Some?
      && r.result.value
         == utf8(decrypt(Last(r.attempts), store.entries[KeyAlias].privateKey, Base64.Decode(encryptedBase64).value).value)
  {
    if KeyAlias !in store.entries then Decryption([], Failure(PrivateKeyNotFound))
    else match Base64.Decode(encryptedBase64)
      case None => Decryption([], Failure(BadBase64))
      case Some(encrypted) =>
        var t := TryConfigs(CipherConfigs, store.entries[KeyAlias].privateKey, encrypted, decrypt);
        match t.plaintext
        case Some(plain) => Decryption(t.attempts, Success(utf8(plain)))
        case None => Decryption(t.attempts, Failure(NoConfigurationWorked))
  }

  // ---------------------------------------------------------------------------------------
  // Lemmas
  // ---------------------------------------------------------------------------------------

  /** The list starts with PKCS #1 v1.5 and names six distinct transformations. */
  lemma CipherConfigsOrder()
    ensures |CipherConfigs| == 6
    ensures CipherConfigs[0].Transformation() == "RSA/ECB/PKCS1Padding"
    ensures forall i, j :: 0 <= i < j < |CipherConfigs| ==>
      CipherConfigs[i].Transformation() != CipherConfigs[j].Transformation()
  {
  }

  /** The trial stops exactly at the first configuration that decrypts: everything before it
      is attempted and nothing after it. */
  lemma {:induction false} TryConfigsStopsAtFirstSuccess(
    configs: seq<CipherConfig>, key: nat, encrypted: seq<byte>, decrypt: Decryptor, k: nat)
    requires k < |configs|
    requires decrypt(configs[k], key, encrypted).Some?
    requires forall j :: 0 <= j < k ==> decrypt(configs[j], key, encrypted).None?
    ensures TryConfigs(configs, key, encrypted, decrypt) == Trial(configs[..k + 1], decrypt(configs[k], key, encrypted))
    decreases k
  {
    if k > 0 {
      var rest := configs[1..];
      assert decrypt(configs[0], key, encrypted).None?;
      forall j | 0 <= j < k - 1
        ensures decrypt(rest[j], key, encrypted).None?
      {
        assert rest[j] == configs[j + 1];
      }
      TryConfigsStopsAtFirstSuccess(rest, key, encrypted, decrypt, k - 1);
      assert [configs[0]] + rest[..k] == configs[..k + 1];
    }
  }

  /** Wherever in the list the sender's padding sits, `descriptBase64` recovers the text of
      its plaintext after attempting exactly the configurations up to and including it. */
  lemma DescriptBase64FindsConfig(
    store: KeyStore, encrypted: seq<byte>, decrypt: Decryptor, utf8: Utf8Decoder, k: nat)
    requires KeyAlias in store.entries
    requires k < |CipherConfigs|
    requires decrypt(CipherConfigs[k], store.entries[KeyAlias].privateKey, encrypted).Some?
    requires forall j :: 0 <= j < k ==> decrypt(CipherConfigs[j], store.entries[KeyAlias].privateKey, encrypted).None?
    ensures DescriptBase64(store, Base64.Encode(encrypted), decrypt, utf8)
         == Decryption(CipherConfigs[..k + 1],
                       Success(utf8(decrypt(CipherConfigs[k], store.entries[KeyAlias].privateKey, encrypted).value)))
  {
    Base64.DecodeEncode(encrypted);
    TryConfigsStopsAtFirstSuccess(CipherConfigs, store.entries[KeyAlias].privateKey, encrypted, decrypt, k);
  }

  /** Calling `ensureKeyPairAndGetPublicKeyBase64` twice returns the same public key and
      leaves the keystore as the first call left it, whatever the second generator would
      have produced. */
  lemma EnsureIsIdempotent(store: KeyStore, first: Result<KeyPair, string>, second: Result<KeyPair, string>)
    requires EnsureKeyPairAndGetPublicKeyBase64(store, first).publicKey.Success?
    ensures var once := EnsureKeyPairAndGetPublicKeyBase64(store, first);
      EnsureKeyPairAndGetPublicKeyBase64(once.store, second) == once
  {
  }

  /** Deleting twice is deleting once, and deleting an absent key changes nothing. */
  lemma DeleteKeyIsIdempotent(store: KeyStore, storeFails: bool)
    ensures DeleteKey(DeleteKey(store, false), storeFails) == DeleteKey(store, false)
  {
  }
}

=== FILE: base64.dfy ===
/** Base64 as in section 4 of RFC 4648: the padded encoder every platform of the system uses,
    the lenient decoder of Node's `Buffer.from(text, 'base64')`, and the canonical decoder
    used for the device-side inputs. */
module Base64 {
  import opened Wrappers
  import opened Bytes

  type sextet = x: int | 0 <= x < 64

  /** The character of the RFC 4648 alphabet for a six-bit value. */
  function CharOf(v: sextet): (c: char)
    ensures c != '=' && c != '\n' && c != ':'
  {
    if v < 26 then (65 + v) as char
    else if v < 52 then (97 + v - 26) as char
    else if v < 62 then (48 + v - 52) as char
    else if v == 62 then '+'
    else '/'
  }

  /** The value of a character for Node's decoder: the standard alphabet plus the URL-safe
      `-` and `_`; every other character, including every character above U+00FF, is
      illegal and skipped. */
  function LenientValue(c: char): (r: Option<sextet>)
    ensures c == '=' ==> r == None
  {
    if 'A' <= c <= 'Z' then Some(c as int - 65)
    else if 'a' <= c <= 'z' then Some(c as int - 97 + 26)
    else if '0' <= c <= '9' then Some(c as int - 48 + 52)
    else if c == '+' || c == '-' then Some(62)
    else if c == '/' || c == '_' then Some(63)
    else None
  }

  /** The four six-bit groups of three octets, most significant bits first. */
  function Sextet0(b0: byte): sextet { b0 / 4 }
  function Sextet1(b0: byte, b1: byte): sextet { (b0 % 4) * 16 + b1 / 16 }
  function Sextet2(b1: byte, b2: byte): sextet { (b1 % 16) * 4 + b2 / 64 }
  function Sextet3(b2: byte): sextet { b2 % 64 }

  /** The four characters encoding three octets. */
  function Quad(b0: byte, b1: byte, b2: byte): string
  {
    [CharOf(Sextet0(b0)), CharOf(Sextet1(b0, b1)), CharOf(Sextet2(b1, b2)), CharOf(Sextet3(b2))]
  }

  /** Padded base64 of an octet string (`toString('base64')`, `base64EncodedString()`,
      `Base64.encodeToString(_, NO_WRAP)`). */
  function Encode(b: seq<byte>): (s: string)
    ensures s == [] <==> b == []
    ensures b != [] ==> |s| >= 4
    decreases |b|
  {
    if |b| < 3 then Final(b) else Quad(b[0], b[1], b[2]) + Encode(b[3..])
  }

  /** The padded encoding of a final group of fewer than three octets. */
  function Final(b: seq<byte>): string
    requires |b| < 3
  {
    if |b| == 0 then []
    else if |b| == 1 then [CharOf(Sextet0(b[0])), CharOf(Sextet1(b[0], 0)), '=', '=']
    else [CharOf(Sextet0(b[0])), CharOf(Sextet1(b[0], b[1])), CharOf(Sextet2(b[1], 0)), '=']
  }

  /** Every three octets, and a final partial group, take four characters. */
  lemma {:induction false} EncodeLength(b: seq<byte>)
    ensures |Encode(b)| == 4 * ((|b| + 2) / 3)
    decreases |b|
  {
    if |b| >= 3 {
      EncodeLength(b[3..]);
      assert |Encode(b)| == 4 + |Encode(b[3..])|;
      assert (|b| + 2) / 3 == (|b[3..]| + 2) / 3 + 1;
    }
  }

  lemma GroupRemainder(n: nat)
    ensures (n + 3) % 3 == n % 3
  {
  }

  /** The encoding ends in padding exactly when the octets do not fill their last group. */
  lemma {:induction false} EncodePadding(b: seq<byte>)
    requires b != []
    ensures Encode(b)[|Encode(b)| - 1] == '=' <==> |b| % 3 != 0
    decreases |b|
  {
    if |b| < 3 {
      var f := Final(b);
      assert Encode(b) == f;
      assert f[|f| - 1] == '=';
    } else {
      var q := Quad(b[0], b[1], b[2]);
      var rest := Encode(b[3..]);
      assert Encode(b) == q + rest;
      if |b| == 3 {
        assert rest == [];
        assert Encode(b)[|Encode(b)| - 1] == q[3] == CharOf(Sextet3(b[2]));
      } else {
        EncodePadding(b[3..]);
        GroupRemainder(|b[3..]|);
        assert Encode(b)[|Encode(b)| - 1] == rest[|rest| - 1];
      }
    }
  }

  /** The encoding uses no line break and no colon, so it never carries a platform tag. */
  lemma {:induction false} EncodeAlphabet(b: seq<byte>)
    ensures forall i :: 0 <= i < |Encode(b)| ==> Encode(b)[i] != '\n' && Encode(b)[i] != ':'
    decreases |b|
  {
    if |b| >= 3 {
      EncodeAlphabet(b[3..]);
      var q := Quad(b[0], b[1], b[2]);
      assert Encode(b) == q + Encode(b[3..]);
      forall i | 0 <= i < |Encode(b)|
        ensures Encode(b)[i] != '\n' && Encode(b)[i] != ':'
      {
        if i >= 4 {
          assert Encode(b)[i] == Encode(b[3..])[i - 4];
        }
      }
    }
  }

  /** The six-bit values Node's decoder reads: legal characters up to the first `=`,
      illegal ones skipped. */
  function Sextets(s: string): (r: seq<sextet>)
    ensures |r| <= |s|
  {
    if |s| == 0 || s[0] == '=' then []
    else match LenientValue(s[0])
      case Some(v) => [v] + Sextets(s[1..])
      case None => Sextets(s[1..])
  }

  function Octet0(a: sextet, b: sextet): byte { a * 4 + b / 16 }
  function Octet1(b: sextet, c: sextet): byte { (b % 16) * 16 + c / 4 }
  function Octet2(c: sextet, d: sextet): byte { (c % 4) * 64 + d }

  /** Octets of a run of six-bit values: each complete group of four gives three octets,
      a trailing group of two or three gives one or two, a lone trailing value gives none. */
  function FromSextets(v: seq<sextet>): (r: seq<byte>)
    ensures 4 * |r| <= 3 * |v| < 4 * |r| + 4
    decreases |v|
  {
    if |v| < 2 then []
    else if |v| == 2 then [Octet0(v[0], v[1])]
    else if |v| == 3 then [Octet0(v[0], v[1]), Octet1(v[1], v[2])]
    else [Octet0(v[0], v[1]), Octet1(v[1], v[2]), Octet2(v[2], v[3])] + FromSextets(v[4..])
  }

  /** Node's `Buffer.from(text, 'base64')`: never fails, whatever the text. Every four
      legal characters before the first `=` give three octets, and a trailing two or three
      give one or two. */
  function LenientDecode(s: string): (r: seq<byte>)
    ensures 4 * |r| <= 3 * |Sextets(s)| < 4 * |r| + 4
    ensures 4 * |r| <= 3 * |s|
  {
    FromSextets(Sextets(s))
  }

  /** Canonical decoding: the octets whose padded encoding is exactly `s`, if any. */
  function Decode(s: string): (r: Option<seq<byte>>)
    ensures r.Some? ==> Encode(r.value) == s
  {
    var b := LenientDecode(s);
    if Encode(b) == s then Some(b) else None
  }

  lemma CharValue(v: sextet)
    ensures LenientValue(CharOf(v)) == Some(v)
  {
  }

  lemma SextetsCons(c: char, t: string)
    requires c != '='
    ensures LenientValue(c).Some? ==> Sextets([c] + t) == [LenientValue(c).value] + Sextets(t)
  {
    assert ([c] + t)[1..] == t;
  }

  lemma QuadSextets(b0: byte, b1: byte, b2: byte, t: string)
    ensures Sextets(Quad(b0, b1, b2) + t)
         == [Sextet0(b0), Sextet1(b0, b1), Sextet2(b1, b2), Sextet3(b2)] + Sextets(t)
  {
    var v0, v1, v2, v3 := Sextet0(b0), Sextet1(b0, b1), Sextet2(b1, b2), Sextet3(b2);
    CharValue(v0); CharValue(v1); CharValue(v2); CharValue(v3);
    SextetsCons(CharOf(v3), t);
    SextetsCons(CharOf(v2), [CharOf(v3)] + t);
    SextetsCons(CharOf(v1), [CharOf(v2), CharOf(v3)] + t);
    SextetsCons(CharOf(v0), [CharOf(v1), CharOf(v2), CharOf(v3)] + t);
    assert Quad(b0, b1, b2) + t == [CharOf(v0)] + ([CharOf(v1)] + ([CharOf(v2)] + ([CharOf(v3)] + t)));
  }

  lemma QuadOctets(b0: byte, b1: byte, b2: byte)
    ensures Octet0(Sextet0(b0), Sextet1(b0, b1)) == b0
    ensures Octet1(Sextet1(b0, b1), Sextet2(b1, b2)) == b1
    ensures Octet2(Sextet2(b1, b2), Sextet3(b2)) == b2
  {
  }

  lemma FromSextetsStep(v: seq<sextet>, rest: seq<sextet>)
    requires |v| == 4
    ensures FromSextets(v + rest) == [Octet0(v[0], v[1]), Octet1(v[1], v[2]), Octet2(v[2], v[3])] + FromSextets(rest)
  {
    assert (v + rest)[4..] == rest;
  }

  lemma LenientDecodeOne(b0: byte)
    ensures LenientDecode(Encode([b0])) == [b0]
  {
    var v0, v1 := Sextet0(b0), Sextet1(b0, 0);
    CharValue(v0); CharValue(v1);
    assert Sextets(['=', '=']) == [];
    SextetsCons(CharOf(v1), ['=', '=']);
    SextetsCons(CharOf(v0), [CharOf(v1), '=', '=']);
    assert Encode([b0]) == [CharOf(v0)] + ([CharOf(v1)] + ['=', '=']);
    assert Sextets(Encode([b0])) == [v0, v1];
    assert FromSextets([v0, v1]) == [Octet0(v0, v1)];
    QuadOctets(b0, 0, 0);
  }

  lemma LenientDecodeTwo(b0: byte, b1: byte)
    ensures LenientDecode(Encode([b0, b1])) == [b0, b1]
  {
    var v0, v1, v2 := Sextet0(b0), Sextet1(b0, b1), Sextet2(b1, 0);
    CharValue(v0); CharValue(v1); CharValue(v2);
    assert Sextets(['=']) == [];
    SextetsCons(CharOf(v2), ['=']);
    SextetsCons(CharOf(v1), [CharOf(v2), '=']);
    SextetsCons(CharOf(v0), [CharOf(v1), CharOf(v2), '=']);
    assert Encode([b0, b1]) == [CharOf(v0)] + ([CharOf(v1)] + ([CharOf(v2)] + ['=']));
    assert Sextets(Encode([b0, b1])) == [v0, v1, v2];
    assert FromSextets([v0, v1, v2]) == [Octet0(v0, v1), Octet1(v1, v2)];
    QuadOctets(b0, b1, 0);
  }

  lemma DecodeQuad(b0: byte, b1: byte, b2: byte, t: string)
    ensures FromSextets(Sextets(Quad(b0, b1, b2) + t)) == [b0, b1, b2] + FromSextets(Sextets(t))
  {
    var v: seq<sextet> := [Sextet0(b0), Sextet1(b0, b1), Sextet2(b1, b2), Sextet3(b2)];
    QuadSextets(b0, b1, b2, t);
    FromSextetsStep(v, Sextets(t));
    QuadOctets(b0, b1, b2);
  }

  lemma SplitThree<T>(s: seq<T>)
    requires |s| >= 3
    ensures s == [s[0], s[1], s[2]] + s[3..]
  {
  }

  lemma LenientDecodeStep(b: seq<byte>)
    requires |b| >= 3
    requires LenientDecode(Encode(b[3..])) == b[3..]
    ensures LenientDecode(Encode(b)) == b
  {
    var rest := b[3..];
    assert Encode(b) == Quad(b[0], b[1], b[2]) + Encode(rest);
    DecodeQuad(b[0], b[1], b[2], Encode(rest));
    SplitThree(b);
  }

  /** Node's decoder inverts the encoder. */
  lemma {:induction false} LenientDecodeEncode(b: seq<byte>)
    ensures LenientDecode(Encode(b)) == b
    decreases |b|
  {
    if |b| == 0 {
    } else if |b| == 1 {
      assert b == [b[0]];
      LenientDecodeOne(b[0]);
    } else if |b| == 2 {
      assert b == [b[0], b[1]];
      LenientDecodeTwo(b[0], b[1]);
    } else {
      LenientDecodeEncode(b[3..]);
      LenientDecodeStep(b);
    }
  }

  /** Canonical decoding and encoding are inverse bijections. */
  lemma DecodeIsInverse(s: string, b: seq<byte>)
    ensures Decode(s) == Some(b) <==> s == Encode(b)
  {
    LenientDecodeEncode(b);
  }

  /** Every octet string decodes back from its encoding. */
  lemma DecodeEncode(b: seq<byte>)
    ensures Decode(Encode(b)) == Some(b)
  {
    DecodeIsInverse(Encode(b), b);
  }
}

=== FILE: decimal.dfy ===
/** Decimal text of integers, as Swift's string interpolation writes an `OSStatus`: the digits
    without leading zeros, preceded by `-` for a negative value. */
module Decimal {
  type digit = x: int | 0 <= x < 10

  function DigitChar(d: digit): (c: char)
    ensures '0' <= c <= '9'
  {
    (48 + d) as char
  }

  function DigitValue(c: char): digit
    requires '0' <= c <= '9'
  {
    c as int - 48
  }

  predicate AllDigits(s: string)
  {
    forall i :: 0 <= i < |s| ==> '0' <= s[i] <= '9'
  }

  /** The digits of `n`, most significant first. */
  function NatToDecimal(n: nat): (s: string)
    ensures |s| > 0 && AllDigits(s)
    ensures s[0] == '0' ==> n == 0
    decreases n
  {
    if n < 10 then [DigitChar(n)] else NatToDecimal(n / 10) + [DigitChar(n % 10)]
  }

  /** The value a run of decimal digits denotes. */
  function DecimalValue(s: string): nat
    requires AllDigits(s)
    decreases |s|
  {
    if |s| == 0 then 0 else DecimalValue(s[..|s| - 1]) * 10 + DigitValue(s[|s| - 1])
  }

  function IntToDecimal(i: int): (s: string)
    ensures |s| > 0
    ensures i >= 0 ==> AllDigits(s)
    ensures i < 0 ==> s[0] == '-' && AllDigits(s[1..])
  {
    if i >= 0 then NatToDecimal(i) else "-" + NatToDecimal(-i)
  }

  /** Reading the digits back gives the number. */
  lemma {:induction false} DecimalValueOfNat(n: nat)
    ensures DecimalValue(NatToDecimal(n)) == n
    decreases n
  {
    if n >= 10 {
      DecimalValueOfNat(n / 10);
      var s := NatToDecimal(n);
      assert s[..|s| - 1] == NatToDecimal(n / 10);
      assert DigitValue(s[|s| - 1]) == n % 10;
    }
  }

  /** Distinct numbers are written differently. */
  lemma IntToDecimalInjective(i: int, j: int)
    requires IntToDecimal(i) == IntToDecimal(j)
    ensures i == j
  {
    if i >= 0 && j >= 0 {
      DecimalValueOfNat(i);
      DecimalValueOfNat(j);
    } else if i < 0 && j < 0 {
      assert NatToDecimal(-i) == IntToDecimal(i)[1..] == NatToDecimal(-j);
      DecimalValueOfNat(-i);
      DecimalValueOfNat(-j);
    }
  }
}

=== FILE: der.dfy ===
/** The hand-assembled DER of the server's iOS key conversion (`server_debug.js`, `iosRawToPem`)
    and an independent reading of the Distinguished Encoding Rules against which it is proved:
    definite-form length octets (section 8.1.3 of ITU-T X.690) in their minimal form
    (section 10.1), tag-length-value elements, and the SubjectPublicKeyInfo of section 4.1.2.7
    of RFC 5280 with the rsaEncryption algorithm of section 2.3.1 of RFC 3279. */
module Der {
  import opened Wrappers
  import opened Bytes

  const TagSequence: byte := 0x30
  const TagBitString: byte := 0x03
  const TagObjectIdentifier: byte := 0x06
  const TagNull: byte := 0x05

  /** Content octets of the rsaEncryption object identifier 1.2.840.113549.1.1.1. */
  const RsaEncryptionOid: seq<byte> := [0x2a, 0x86, 0x48, 0x86, 0xf7, 0x0d, 0x01, 0x01, 0x01]

  /** The fixed 15-octet AlgorithmIdentifier: SEQUENCE { rsaEncryption, NULL }. */
  const AlgorithmIdentifier: seq<byte> :=
    [0x30, 0x0d, 0x06, 0x09, 0x2a, 0x86, 0x48, 0x86, 0xf7, 0x0d, 0x01, 0x01, 0x01, 0x05, 0x00]

  // ---------------------------------------------------------------------------------------
  // The source's construction
  // ---------------------------------------------------------------------------------------

  /** The length octets as the server writes them: one octet below 128, `0x81 n` below 256,
      and otherwise `0x82` followed by `(n >> 8) & 0xFF` and `n & 0xFF`. The masks keep only
      the low sixteen bits, so lengths above 65535 are silently truncated. */
  function SourceLengthOctets(n: nat): (r: seq<byte>)
    ensures |r| == 1 <==> n < 128
    ensures n <= 0xFFFF ==> |BigEndian(n)| <= 2 && r == DerLength(n)
  {
    if n < 128 then [n]
    else if n < 256 then [0x81, n]
    else [0x82, (n / 256) % 256, n % 256]
  }

  /** The BIT STRING header: tag, length octets for `bitStringLength`, and the octet saying
      no bits of the last content octet are unused. */
  function BitStringHeader(bitStringLength: nat): seq<byte>
  {
    [TagBitString] + SourceLengthOctets(bitStringLength) + [0x00]
  }

  /** The outer SEQUENCE header for `contentLength` content octets. */
  function SequenceHeader(contentLength: nat): seq<byte>
  {
    [TagSequence] + SourceLengthOctets(contentLength)
  }

  /** `iosRawToPem`'s DER: SEQUENCE { AlgorithmIdentifier, BIT STRING { 0x00, raw } }, with
      the BIT STRING length counting the unused-bits octet. */
  function SpkiFromRaw(raw: seq<byte>): (der: seq<byte>)
    ensures |der| > |raw| + |AlgorithmIdentifier|
    ensures der[|der| - |raw|..] == raw
    ensures der[|der| - |raw| - 1] == 0x00
    ensures der[0] == TagSequence
    ensures var tail := AlgorithmIdentifier + BitStringHeader(|raw| + 1) + raw;
      |tail| < |der| && der[|der| - |tail|..] == tail
  {
    var bitString := BitStringHeader(|raw| + 1) + raw;
    var content := AlgorithmIdentifier + bitString;
    assert content == AlgorithmIdentifier + BitStringHeader(|raw| + 1) + raw;
    var der := SequenceHeader(|content|) + content;
    assert der[|der| - |content|..] == content;
    assert der[|der| - |raw|..] == raw;
    der
  }

  // ---------------------------------------------------------------------------------------
  // Reference DER
  // ---------------------------------------------------------------------------------------

  /** Minimal big-endian octets of `n`: no leading zero octet (a single zero for 0). */
  function BigEndian(n: nat): (s: seq<byte>)
    ensures |s| > 0
    ensures n > 0 ==> s[0] != 0
    decreases n
  {
    if n < 256 then [n] else BigEndian(n / 256) + [n % 256]
  }

  /** The value of big-endian octets. */
  function FromBigEndian(s: seq<byte>): nat
  {
    if |s| == 0 then 0 else FromBigEndian(s[..|s| - 1]) * 256 + s[|s| - 1]
  }

  /** Definite-form length octets of DER: short form below 128, otherwise the long form
      `0x80 + k` followed by the k minimal big-endian octets of the length. */
  function DerLength(n: nat): (s: seq<byte>)
    requires |BigEndian(n)| <= 126
  {
    if n < 128 then [n] else [0x80 + |BigEndian(n)|] + BigEndian(n)
  }

  /** Reads DER length octets at the start of `s`: the length and the number of octets
      consumed. The indefinite form (0x80), the reserved initial octet 0xFF, a leading zero
      octet, and a long form for a length below 128 are all rejected as not DER. */
  function ParseLength(s: seq<byte>): (r: Option<(nat, nat)>)
    ensures r.Some? ==> 0 < r.value.1 <= |s|
  {
    if |s| == 0 then None
    else if s[0] < 128 then Some((s[0], 1))
    else if s[0] == 0x80 || s[0] == 0xFF then None
    else
      var k := s[0] - 0x80;
      if |s| < 1 + k || s[1] == 0 then None
      else
        var n := FromBigEndian(s[1..1 + k]);
        if n < 128 then None else Some((n, 1 + k))
  }

  /** A tag-length-value element with a single-octet tag. */
  datatype Element = Element(tag: byte, content: seq<byte>)

  /** Reads one element at the start of `s`, returning it and the octets after it. Tags of
      the high-tag-number form (low five bits all set) are not supported. */
  function ParseElement(s: seq<byte>): (r: Option<(Element, seq<byte>)>)
    ensures r.Some? ==> |r.value.1| < |s|
  {
    if |s| == 0 || s[0] % 32 == 31 then None
    else match ParseLength(s[1..])
      case None => None
      case Some((n, k)) =>
        if 1 + k + n <= |s| then Some((Element(s[0], s[1 + k..1 + k + n]), s[1 + k + n..]))
        else None
  }

  /** The DER encoding of one element. */
  function EncodeElement(tag: byte, content: seq<byte>): seq<byte>
    requires |BigEndian(|content|)| <= 126
  {
    [tag] + DerLength(|content|) + content
  }

  /** Reads a SubjectPublicKeyInfo carrying an rsaEncryption key and returns the octets of
      its subjectPublicKey BIT STRING (which must declare zero unused bits). Nothing may
      follow either the outer SEQUENCE or its second component. */
  function ParseSpki(der: seq<byte>): Option<seq<byte>>
  {
    match ParseElement(der)
    case None => None
    case Some((outer, after)) =>
      if outer.tag != TagSequence || after != [] then None
      else match ParseElement(outer.content)
        case None => None
        case Some((algorithm, rest)) =>
          if algorithm != Element(TagSequence, AlgorithmIdentifier[2..]) then None
          else match ParseElement(rest)
            case None => None
            case Some((key, tail)) =>
              if key.tag != TagBitString || tail != [] || |key.content| == 0 || key.content[0] != 0 then None
              else Some(key.content[1..])
  }

  // ---------------------------------------------------------------------------------------
  // Lemmas
  // ---------------------------------------------------------------------------------------

  lemma {:induction false} FromBigEndianOfBigEndian(n: nat)
    ensures FromBigEndian(BigEndian(n)) == n
    decreases n
  {
    if n >= 256 {
      FromBigEndianOfBigEndian(n / 256);
      var s := BigEndian(n);
      assert s[..|s| - 1] == BigEndian(n / 256);
    }
  }

  /** Big-endian octets without a leading zero are the minimal encoding of their value. */
  lemma {:induction false} BigEndianUnique(s: seq<byte>)
    requires |s| > 0 && s[0] != 0
    ensures BigEndian(FromBigEndian(s)) == s
    decreases |s|
  {
    var init := s[..|s| - 1];
    if |init| == 0 {
      assert s == [s[0]];
    } else {
      assert init[0] == s[0];
      BigEndianUnique(init);
      FromBigEndianPositive(init);
      var n := FromBigEndian(s);
      assert n / 256 == FromBigEndian(init) && n % 256 == s[|s| - 1];
      assert s == init + [s[|s| - 1]];
    }
  }

  lemma {:induction false} FromBigEndianPositive(s: seq<byte>)
    requires |s| > 0 && s[0] != 0
    ensures FromBigEndian(s) > 0
    decreases |s|
  {
    if |s| > 1 {
      var init := s[..|s| - 1];
      assert init[0] == s[0];
      FromBigEndianPositive(init);
    }
  }

  /** A reader of DER recovers every length from its minimal encoding, whatever follows. */
  lemma ParseDerLength(n: nat, rest: seq<byte>)
    requires |BigEndian(n)| <= 126
    ensures ParseLength(DerLength(n) + rest) == Some((n, |DerLength(n)|))
  {
    var s := DerLength(n) + rest;
    if n >= 128 {
      var b := BigEndian(n);
      assert s[1..1 + |b|] == b;
      FromBigEndianOfBigEndian(n);
    }
  }

  /** The length octets a DER reader accepts are exactly the minimal encoding of the length
      it reports: DER lengths have one encoding each. */
  lemma ParsedLengthIsMinimal(s: seq<byte>)
    requires ParseLength(s).Some?
    ensures var (n, k) := ParseLength(s).value;
      |BigEndian(n)| <= 126 && s[..k] == DerLength(n)
  {
    var (n, k) := ParseLength(s).value;
    if s[0] >= 128 {
      var b := s[1..k];
      assert b[0] == s[1];
      BigEndianUnique(b);
      assert s[..k] == [s[0]] + b;
    }
  }

  /** For every length up to 65535 the server's three-tier rule writes exactly the minimal
      DER length octets. */
  lemma SourceLengthIsDer(n: nat)
    requires n <= 65535
    ensures |BigEndian(n)| <= 2
    ensures SourceLengthOctets(n) == DerLength(n)
  {
    if n >= 256 {
      assert BigEndian(n / 256) == [n / 256];
      assert BigEndian(n) == [n / 256, n % 256];
    }
  }

  /** Above 65535 the masks truncate: the length 65536 is written as `82 00 00`, which no
      DER reader accepts, and which a lenient reader would take for zero. */
  lemma SourceLengthTruncates()
    ensures SourceLengthOctets(65536) == [0x82, 0x00, 0x00]
    ensures ParseLength(SourceLengthOctets(65536) + [0x00]) == None
    ensures FromBigEndian(SourceLengthOctets(65536)[1..]) == 0
  {
    var s := SourceLengthOctets(65536);
    assert s[1..][..1] == [0x00];
    assert s[1..] == [0x00, 0x00];
  }

  lemma ParseEncodedElement(tag: byte, content: seq<byte>, rest: seq<byte>)
    requires tag % 32 != 31
    requires |BigEndian(|content|)| <= 126
    ensures ParseElement(EncodeElement(tag, content) + rest) == Some((Element(tag, content), rest))
  {
    var len := DerLength(|content|);
    var s := EncodeElement(tag, content) + rest;
    assert s[1..] == len + (content + rest);
    ParseDerLength(|content|, content + rest);
    assert s[1 + |len|..1 + |len| + |content|] == content;
    assert s[1 + |len| + |content|..] == rest;
  }

  /** The AlgorithmIdentifier constant is the DER of SEQUENCE { OID rsaEncryption, NULL }. */
  lemma AlgorithmIdentifierIsDer()
    ensures AlgorithmIdentifier
         == EncodeElement(TagSequence, EncodeElement(TagObjectIdentifier, RsaEncryptionOid) + EncodeElement(TagNull, []))
    ensures AlgorithmIdentifier == EncodeElement(TagSequence, AlgorithmIdentifier[2..])
  {
  }

  /** Below the 16-bit bound the server's construction is the DER of
      SEQUENCE { AlgorithmIdentifier, BIT STRING { 0x00, raw } }. */
  lemma SpkiFromRawIsDer(raw: seq<byte>)
    requires |raw| <= 65515
    ensures |BigEndian(|raw| + 1)| <= 126
    ensures |BigEndian(|AlgorithmIdentifier| + |EncodeElement(TagBitString, [0x00] + raw)|)| <= 126
    ensures SpkiFromRaw(raw)
         == EncodeElement(TagSequence, AlgorithmIdentifier + EncodeElement(TagBitString, [0x00] + raw))
  {
    var l := |raw| + 1;
    SourceLengthIsDer(l);
    var bitString := BitStringHeader(l) + raw;
    assert bitString == EncodeElement(TagBitString, [0x00] + raw);
    var content := AlgorithmIdentifier + bitString;
    assert |SourceLengthOctets(l)| <= 3;
    SourceLengthIsDer(|content|);
  }

  /** For raw keys up to 65515 octets, any DER reader gets the raw key back out of the
      server's SubjectPublicKeyInfo. */
  lemma ParseSpkiFromRaw(raw: seq<byte>)
    requires |raw| <= 65515
    ensures ParseSpki(SpkiFromRaw(raw)) == Some(raw)
  {
    SpkiFromRawIsDer(raw);
    ParseSpkiOfEncoding(raw);
  }

  /** The reader takes SEQUENCE { AlgorithmIdentifier, BIT STRING { 0x00, raw } } apart. */
  lemma ParseSpkiOfEncoding(raw: seq<byte>)
    requires |BigEndian(|raw| + 1)| <= 126
    requires |BigEndian(|AlgorithmIdentifier| + |EncodeElement(TagBitString, [0x00] + raw)|)| <= 126
    ensures ParseSpki(EncodeElement(TagSequence, AlgorithmIdentifier + EncodeElement(TagBitString, [0x00] + raw)))
         == Some(raw)
  {
    AlgorithmIdentifierIsDer();
    var bits := EncodeElement(TagBitString, [0x00] + raw);
    var content := AlgorithmIdentifier + bits;
    ParseEncodedElement(TagSequence, content, []);
    assert EncodeElement(TagSequence, content) + [] == EncodeElement(TagSequence, content);
    ParseEncodedElement(TagSequence, AlgorithmIdentifier[2..], bits);
    ParseEncodedElement(TagBitString, [0x00] + raw, []);
    assert bits + [] == bits;
    assert ([0x00] + raw)[1..] == raw;
  }

  /** What a DER reader accepts is exactly the encoding of what it returns. */
  lemma ParsedElementIsEncoding(s: seq<byte>)
    requires ParseElement(s).Some?
    ensures var (e, rest) := ParseElement(s).value;
      |BigEndian(|e.content|)| <= 126 && s == EncodeElement(e.tag, e.content) + rest
  {
    var (e, rest) := ParseElement(s).value;
    var (n, k) := ParseLength(s[1..]).value;
    ParsedLengthIsMinimal(s[1..]);
    assert s[1..][..k] == s[1..1 + k];
    assert s == [s[0]] + s[1..1 + k] + s[1 + k..1 + k + n] + s[1 + k + n..];
  }

  /** For raw keys up to 65515 octets, every SubjectPublicKeyInfo a DER reader accepts for an
      rsaEncryption key is, octet for octet, the one the server builds from that key: a
      device that sends the DER form and one that sends the raw key end with the same
      structure. */
  lemma SpkiIsUnique(der: seq<byte>, raw: seq<byte>)
    requires |raw| <= 65515
    requires ParseSpki(der) == Some(raw)
    ensures der == SpkiFromRaw(raw)
  {
    var (outer, after) := ParseElement(der).value;
    var (algorithm, rest) := ParseElement(outer.content).value;
    var (key, tail) := ParseElement(rest).value;
    assert outer.tag == TagSequence && after == [];
    assert algorithm == Element(TagSequence, AlgorithmIdentifier[2..]);
    assert key.tag == TagBitString && tail == [] && key.content == [0x00] + raw;
    ParsedElementIsEncoding(rest);
    assert rest == EncodeElement(TagBitString, [0x00] + raw);
    ParsedElementIsEncoding(outer.content);
    AlgorithmIdentifierIsDer();
    assert outer.content == AlgorithmIdentifier + EncodeElement(TagBitString, [0x00] + raw);
    ParsedElementIsEncoding(der);
    assert der == EncodeElement(TagSequence, outer.content);
    SpkiFromRawIsDer(raw);
  }
}

=== FILE: end_to_end.dfy ===
/** The registration flow across the three programs: a device exports its public key, the
    server turns it into a PEM and encrypts the secret under PKCS #1 v1.5, and the device
    decrypts the reply. The RSA primitives stay abstract: the lemmas assume that the
    device's PKCS #1 v1.5 decryption turns the server's ciphertext back into the secret's
    octets, and the iOS lemma also that UTF-8 decoding turns those octets into the secret. */
module EndToEnd {
  import opened Wrappers
  import opened Bytes
  import Base64
  import Der
  import Pem
  import opened KeyFormat
  import Server
  import AndroidKeyHelper
  import IosKeychain

  /** Base64 text never carries the iOS marker: the marker holds a colon. */
  lemma EncodingIsUntagged(b: seq<byte>)
    ensures !HasIosTag(Base64.Encode(b))
  {
    Base64.EncodeAlphabet(b);
    var text := Base64.Encode(b);
    if |text| >= |IosRawTag| {
      assert text[..|IosRawTag|][7] == text[7] != ':';
    }
  }

  /** The two key formats meet at the server: an iOS raw key and the SubjectPublicKeyInfo
      an Android device would send for the same key give the same PEM. */
  lemma SameKeySamePem(raw: seq<byte>)
    ensures Server.KeyToPem(IosRawTag + Base64.Encode(raw))
         == Server.KeyToPem(Base64.Encode(Der.SpkiFromRaw(raw)))
  {
    TaggedKey(Base64.Encode(raw));
    Base64.LenientDecodeEncode(raw);
    EncodingIsUntagged(Der.SpkiFromRaw(raw));
    Base64.LenientDecodeEncode(Der.SpkiFromRaw(raw));
  }

  /** The key text Android sends reaches the server's Android branch, and the PEM the server
      builds carries exactly the keystore's SubjectPublicKeyInfo. */
  lemma AndroidKeyReachesServer(store: AndroidKeyHelper.KeyStore, generate: Result<AndroidKeyHelper.KeyPair, string>)
    requires AndroidKeyHelper.EnsureKeyPairAndGetPublicKeyBase64(store, generate).publicKey.Success?
    ensures var e := AndroidKeyHelper.EnsureKeyPairAndGetPublicKeyBase64(store, generate);
      var der := e.store.entries[AndroidKeyHelper.KeyAlias].publicKeyDer;
      && !HasIosTag(e.publicKey.value)
      && (Server.KeyToPem(e.publicKey.value).Success? <==> |der| > 0)
      && (|der| > 0 ==> Pem.Dearmor(Server.KeyToPem(e.publicKey.value).value) == Some(der))
  {
    var e := AndroidKeyHelper.EnsureKeyPairAndGetPublicKeyBase64(store, generate);
    var der := e.store.entries[AndroidKeyHelper.KeyAlias].publicKeyDer;
    Base64.DecodeIsInverse(e.publicKey.value, der);
    EncodingIsUntagged(der);
    Base64.LenientDecodeEncode(der);
  }

  /** The key text iOS sends reaches the server's iOS branch, and, for raw keys up to 65515
      octets, the SubjectPublicKeyInfo in the server's PEM wraps exactly the keychain's raw
      key. */
  lemma IosKeyReachesServer(key: IosKeychain.SecKey)
    requires key.external.Success? && |key.external.value| <= 65515
    ensures var text := IosKeychain.ExportPublicKey(key).value;
      && HasIosTag(text)
      && Server.KeyToPem(text).Success?
      && Pem.Dearmor(Server.KeyToPem(text).value).Some?
      && Der.ParseSpki(Pem.Dearmor(Server.KeyToPem(text).value).value) == Some(key.external.value)
  {
    var text := IosKeychain.ExportPublicKey(key).value;
    var body := text[|IosRawTag|..];
    Base64.DecodeIsInverse(body, key.external.value);
    Base64.LenientDecodeEncode(key.external.value);
  }

  /** Android recovers the secret's octets on its first attempt, with PKCS #1 v1.5, provided
      its private key decrypts the ciphertext the server made with the PEM it built; the text
      returned is whatever the UTF-8 decoder makes of those octets. */
  lemma AndroidRecoversSecret(
    store: AndroidKeyHelper.KeyStore, key: string, pem: string, ciphertext: seq<byte>,
    encrypt: Server.Encryptor, decrypt: AndroidKeyHelper.Decryptor, utf8: AndroidKeyHelper.Utf8Decoder)
    requires AndroidKeyHelper.KeyAlias in store.entries
    requires key != [] && Server.KeyToPem(key) == Success(pem)
    requires encrypt(pem, Server.Pkcs1Padding, Server.SecretBytes) == Some(ciphertext)
    requires decrypt(AndroidKeyHelper.EcbPkcs1, store.entries[AndroidKeyHelper.KeyAlias].privateKey, ciphertext)
          == Some(Server.SecretBytes)
    ensures Server.Register(Server.Text(key), encrypt).Registered?
    ensures AndroidKeyHelper.DescriptBase64(store, Server.Register(Server.Text(key), encrypt).encryptedBase64, decrypt, utf8)
         == AndroidKeyHelper.Decryption([AndroidKeyHelper.EcbPkcs1], Success(utf8(Server.SecretBytes)))
  {
    var reply := Server.Register(Server.Text(key), encrypt).encryptedBase64;
    Base64.DecodeIsInverse(reply, ciphertext);
    AndroidKeyHelper.DescriptBase64FindsConfig(store, ciphertext, decrypt, utf8, 0);
    assert AndroidKeyHelper.CipherConfigs[..1] == [AndroidKeyHelper.EcbPkcs1];
  }

  /** A ciphertext the first three transformations reject and the fourth decrypts makes
      Android attempt exactly the first four, in order. */
  lemma FourthTransformationIsFourthAttempt(
    store: AndroidKeyHelper.KeyStore, ciphertext: seq<byte>,
    decrypt: AndroidKeyHelper.Decryptor, utf8: AndroidKeyHelper.Utf8Decoder)
    requires AndroidKeyHelper.KeyAlias in store.entries
    requires var k := store.entries[AndroidKeyHelper.KeyAlias].privateKey;
      && decrypt(AndroidKeyHelper.EcbOaepSha1, k, ciphertext).Some?
      && decrypt(AndroidKeyHelper.EcbPkcs1, k, ciphertext).None?
      && decrypt(AndroidKeyHelper.EcbOaep, k, ciphertext).None?
      && decrypt(AndroidKeyHelper.EcbOaepSha256, k, ciphertext).None?
    ensures AndroidKeyHelper.DescriptBase64(store, Base64.Encode(ciphertext), decrypt, utf8).attempts
         == [AndroidKeyHelper.EcbPkcs1, AndroidKeyHelper.EcbOaep, AndroidKeyHelper.EcbOaepSha256, AndroidKeyHelper.EcbOaepSha1]
  {
    var k := store.entries[AndroidKeyHelper.KeyAlias].privateKey;
    var configs := AndroidKeyHelper.CipherConfigs;
    forall j | 0 <= j < 3
      ensures decrypt(configs[j], k, ciphertext).None?
    {
    }
    AndroidKeyHelper.DescriptBase64FindsConfig(store, ciphertext, decrypt, utf8, 3);
    assert configs[..4] == [AndroidKeyHelper.EcbPkcs1, AndroidKeyHelper.EcbOaep, AndroidKeyHelper.EcbOaepSha256, AndroidKeyHelper.EcbOaepSha1];
  }

  /** iOS recovers the server's secret through the `decryptSecret` method, provided its
      private key decrypts the ciphertext the server made with the PEM it built, and the
      keychain is left as it was. */
  lemma IosRecoversSecret(
    kc: IosKeychain.Keychain, key: string, pem: string, ciphertext: seq<byte>,
    encrypt: Server.Encryptor, platform: IosKeychain.Platform)
    requires IosKeychain.HasPrivateKey(kc)
    requires key != [] && Server.KeyToPem(key) == Success(pem)
    requires encrypt(pem, Server.Pkcs1Padding, Server.SecretBytes) == Some(ciphertext)
    requires platform.decrypt(kc.items[IosKeychain.PrivateKeyClass], IosKeychain.RsaEncryptionPkcs1, ciphertext)
          == Success(Server.SecretBytes)
    requires platform.utf8(Server.SecretBytes) == Some(Server.SecretToProtect)
    ensures Server.Register(Server.Text(key), encrypt).Registered?
    ensures var call := IosKeychain.MethodCall("decryptSecret", IosKeychain.Dictionary(map[
              "encryptedSecret" := IosKeychain.StringArgument(Server.Register(Server.Text(key), encrypt).encryptedBase64)]));
      IosKeychain.HandleKeyMethod(kc, call, platform)
      == IosKeychain.Handled(kc, IosKeychain.Value(Server.SecretToProtect))
  {
    var reply := Server.Register(Server.Text(key), encrypt).encryptedBase64;
    Base64.DecodeIsInverse(reply, ciphertext);
  }
}

=== FILE: ios_keychain.dfy ===
/** The iOS key handler (`AppDelegate.swift`): the method channel dispatch, get-or-generate of
    the RSA key pair kept in the keychain under one application tag, the export of the public
    key with the `IOS_RAW:` marker, the two-step delete that tolerates missing items, and the
    PKCS #1 v1.5 decryption of the server's secret. The keychain is a map from key class to
    key reference, plus the failure status it reports for a class instead of looking; the
    Security framework's generation, decryption and UTF-8 decoding are parameters. */
module IosKeychain {
  import opened Wrappers
  import opened Bytes
  import Base64
  import Decimal
  import opened KeyFormat

  type OSStatus = int
  const ErrSecSuccess: OSStatus := 0
  const ErrSecItemNotFound: OSStatus := -25300

  /** A status the keychain reports when it cannot serve a request at all (locked, denied
      interaction, a failed authentication): anything but success and not-found. */
  type FaultStatus = s: int | s != ErrSecSuccess && s != ErrSecItemNotFound witness -25308

  datatype KeyClass = PrivateKeyClass | PublicKeyClass

  /** A key reference: its identity and what `SecKeyCopyExternalRepresentation` gives for it,
      the PKCS #1 RSAPublicKey octets or the description of the error, if any. */
  datatype SecKey = SecKey(id: nat, external: Result<seq<byte>, Option<string>>)

  /** The items under the application tag `secure_teste_rsa_key` (the only tag the handler
      uses, so it is left implicit), and the failure status for each key class the keychain
      cannot serve. */
  datatype Keychain = Keychain(items: map<KeyClass, SecKey>, faults: map<KeyClass, FaultStatus>)

  /** What `SecItemCopyMatching` returns: a status and the item reference. */
  datatype Query = Query(status: OSStatus, item: Option<SecKey>)

  /** `SecItemCopyMatching` for one key class with `kSecReturnRef`. */
  function CopyMatching(kc: Keychain, cls: KeyClass): (q: Query)
    ensures q.status == ErrSecSuccess <==> q.item.Some?
    ensures q.item.Some? <==> cls !in kc.faults && cls in kc.items
    ensures q.item.Some? ==> q.item.value == kc.items[cls]
    ensures q.status == ErrSecItemNotFound <==> cls !in kc.faults && cls !in kc.items
    ensures cls in kc.faults ==> q.status == kc.faults[cls]
  {
    if cls in kc.faults then Query(kc.faults[cls], None)
    else if cls in kc.items then Query(ErrSecSuccess, Some(kc.items[cls]))
    else Query(ErrSecItemNotFound, None)
  }

  /** `SecItemDelete` for one key class: its status and the keychain after it. */
  datatype Deletion = Deletion(status: OSStatus, keychain: Keychain)

  function DeleteItem(kc: Keychain, cls: KeyClass): (r: Deletion)
    ensures (r.status == ErrSecSuccess || r.status == ErrSecItemNotFound) <==> cls !in kc.faults
    ensures r.status == ErrSecSuccess <==> cls !in kc.faults && cls in kc.items
    ensures cls !in kc.faults ==> r.keychain == kc.(items := kc.items - {cls})
    ensures cls in kc.faults ==> r == Deletion(kc.faults[cls], kc)
  {
    if cls in kc.faults then Deletion(kc.faults[cls], kc)
    else if cls in kc.items then Deletion(ErrSecSuccess, kc.(items := kc.items - {cls}))
    else Deletion(ErrSecItemNotFound, kc)
  }

  // ---------------------------------------------------------------------------------------
  // Errors
  // ---------------------------------------------------------------------------------------

  /** `KeychainError`; a `CFError` is represented by its localized description, if any. */
  datatype KeychainError =
    | FailedToCreateAccessControl
    | FailedToGenerateKeyPair(cause: Option<string>)
    | FailedToGetPublicKey
    | FailedToExportPublicKey(cause: Option<string>)
    | FailedToRetrieveKey(status: OSStatus)
    | FailedToRetrievePrivateKey(status: OSStatus)
    | FailedToDecrypt(cause: Option<string>)
    | FailedToDeletePrivateKey(status: OSStatus)
    | FailedToDeletePublicKey(status: OSStatus)
    | InvalidBase64Data
    | FailedToDecodeDecryptedData
  {
    /** `errorDescription`, which is also the error's `localizedDescription`. */
    function Description(): string
    {
      match this
      case FailedToCreateAccessControl => "Failed to create access control for biometric authentication"
      case FailedToGenerateKeyPair(cause) => "Failed to generate RSA key pair: " + CauseText(cause)
      case FailedToGetPublicKey => "Failed to get public key from private key"
      case FailedToExportPublicKey(cause) => "Failed to export public key: " + CauseText(cause)
      case FailedToRetrieveKey(status) => StatusText("Failed to retrieve key from keychain", status)
      case FailedToRetrievePrivateKey(status) => StatusText("Failed to retrieve private key from keychain", status)
      case FailedToDecrypt(cause) => "Failed to decrypt data: " + CauseText(cause)
      case FailedToDeletePrivateKey(status) => StatusText("Failed to delete private key", status)
      case FailedToDeletePublicKey(status) => StatusText("Failed to delete public key", status)
      case InvalidBase64Data => "Invalid base64 encrypted data"
      case FailedToDecodeDecryptedData => "Failed to decode decrypted data as UTF-8 string"
    }
  }

  /** `error?.localizedDescription ?? "Unknown error"`. */
  function CauseText(cause: Option<string>): string
  {
    match cause
    case Some(description) => description
    case None => "Unknown error"
  }

  /** A message followed by `(status: N)` with the status in decimal. */
  function StatusText(message: string, status: OSStatus): string
  {
    message + " (status: " + Decimal.IntToDecimal(status) + ")"
  }

  /** The reply a Flutter method call receives. */
  datatype Reply =
    | Value(text: string)
    | NullValue
    | FlutterError(code: string, message: string)
    | MethodNotImplemented

  /** A handler's reply and the keychain it leaves. */
  datatype Handled = Handled(keychain: Keychain, reply: Reply)

  // ---------------------------------------------------------------------------------------
  // Public key
  // ---------------------------------------------------------------------------------------

  /** `exportPublicKey`: the marker followed by the padded base64 of the raw key. */
  function ExportPublicKey(key: SecKey): (r: Result<string, KeychainError>)
    ensures r.Success? <==> key.external.Success?
    ensures r.Success? ==>
      HasIosTag(r.value) && Base64.Decode(r.value[|IosRawTag|..]) == Some(key.external.value)
    ensures r.Failure? ==> r.error == FailedToExportPublicKey(key.external.error)
  {
    match key.external
    case Failure(cause) => Failure(FailedToExportPublicKey(cause))
    case Success(raw) =>
      TaggedKey(Base64.Encode(raw));
      Base64.DecodeEncode(raw);
      Success(IosRawTag + Base64.Encode(raw))
  }

  /** `getExistingPublicKey`: the exported public key, `None` when the keychain holds no
      public key item, or an error for any other status. */
  function GetExistingPublicKey(kc: Keychain): (r: Result<Option<string>, KeychainError>)
    ensures r == Success(None) <==> PublicKeyClass !in kc.faults && PublicKeyClass !in kc.items
    ensures PublicKeyClass in kc.faults ==> r == Failure(FailedToRetrieveKey(kc.faults[PublicKeyClass]))
    ensures PublicKeyClass !in kc.faults && PublicKeyClass in kc.items ==>
      match ExportPublicKey(kc.items[PublicKeyClass])
      case Success(key) => r == Success(Some(key))
      case Failure(e) => r == Failure(e)
  {
    var q := CopyMatching(kc, PublicKeyClass);
    if q.status == ErrSecSuccess && q.item.Some? then
      match ExportPublicKey(q.item.value)
      case Success(key) => Success(Some(key))
      case Failure(e) => Failure(e)
    else if q.status == ErrSecItemNotFound then Success(None)
    else Failure(FailedToRetrieveKey(q.status))
  }

  /** What the generation calls give: `SecAccessControlCreateWithFlags` fails, or
      `SecKeyCreateRandomKey` fails with an error, or it creates a permanent private key
      under the tag, with what `SecKeyCopyPublicKey` returns for it and whether the keychain
      also keeps that public key as an item a later query finds. */
  datatype Generation =
    | AccessControlUnavailable
    | RandomKeyFails(cause: Option<string>)
    | Created(privateKey: SecKey, publicKey: Option<SecKey>, publicKeyStored: bool)

  /** The keychain after `generateRSAKeyPair` and what it returns or throws. */
  datatype Generated = Generated(keychain: Keychain, publicKey: Result<string, KeychainError>)

  /** `generateRSAKeyPair`: the private key is stored as soon as it is created, even when
      the public key cannot then be obtained or exported. */
  function GenerateRSAKeyPair(kc: Keychain, gen: Generation): (r: Generated)
    ensures !gen.Created? ==> r.keychain == kc && r.publicKey.Failure?
    ensures gen == AccessControlUnavailable ==> r.publicKey == Failure(FailedToCreateAccessControl)
    ensures gen.RandomKeyFails? ==> r.publicKey == Failure(FailedToGenerateKeyPair(gen.cause))
    ensures gen.Created? ==>
      && r.keychain.faults == kc.faults
      && PrivateKeyClass in r.keychain.items && r.keychain.items[PrivateKeyClass] == gen.privateKey
      && (r.publicKey.Success? <==> gen.publicKey.Some? && gen.publicKey.value.external.Success?)
      && (gen.publicKey.None? ==> r.publicKey == Failure(FailedToGetPublicKey))
      && (gen.publicKey.Some? && gen.publicKeyStored ==> r.keychain.items == kc.items[PrivateKeyClass := gen.privateKey][PublicKeyClass := gen.publicKey.value])
      && (!(gen.publicKey.Some? && gen.publicKeyStored) ==> r.keychain.items == kc.items[PrivateKeyClass := gen.privateKey])
    ensures gen.Created? && gen.publicKey.Some? && gen.publicKey.value.external.Failure? ==>
      r.publicKey == Failure(FailedToExportPublicKey(gen.publicKey.value.external.error))
    ensures r.publicKey.Success? ==>
      && gen.Created? && gen.publicKey.Some?
      && r.publicKey == ExportPublicKey(gen.publicKey.value)
  {
    match gen
    case AccessControlUnavailable => Generated(kc, Failure(FailedToCreateAccessControl))
    case RandomKeyFails(cause) => Generated(kc, Failure(FailedToGenerateKeyPair(cause)))
    case Created(privateKey, publicKey, stored) =>
      var withPrivate := kc.items[PrivateKeyClass := privateKey];
      var items := if stored && publicKey.Some? then withPrivate[PublicKeyClass := publicKey.value] else withPrivate;
      var kc' := kc.(items := items);
      match publicKey
      case None => Generated(kc', Failure(FailedToGetPublicKey))
      case Some(key) => Generated(kc', ExportPublicKey(key))
  }

  function KeyError(e: KeychainError): Reply
  {
    FlutterError("KEY_ERROR", "Failed to get public key: " + e.Description())
  }

  /** `handleGetPublicKey`: the existing public key if the keychain has one, otherwise a newly
      generated one. A failed lookup is reported without generating anything. */
  function HandleGetPublicKey(kc: Keychain, gen: Generation): (r: Handled)
    ensures PublicKeyClass in kc.faults ==>
      r == Handled(kc, KeyError(FailedToRetrieveKey(kc.faults[PublicKeyClass])))
    ensures PublicKeyClass in kc.items ==> r.keychain == kc
    ensures r.keychain != kc ==>
      && PublicKeyClass !in kc.faults && PublicKeyClass !in kc.items
      && gen.Created? && r.keychain.faults == kc.faults
      && PrivateKeyClass in r.keychain.items && r.keychain.items[PrivateKeyClass] == gen.privateKey
    ensures GetExistingPublicKey(kc).Success? && GetExistingPublicKey(kc).value.Some? ==>
      r == Handled(kc, Value(GetExistingPublicKey(kc).value.value))
    ensures GetExistingPublicKey(kc) == Success(None) ==>
      && r.keychain == GenerateRSAKeyPair(kc, gen).keychain
      && (r.reply.Value? <==> GenerateRSAKeyPair(kc, gen).publicKey.Success?)
    ensures GetExistingPublicKey(kc).Failure? ==> r.reply == KeyError(GetExistingPublicKey(kc).error)
    ensures GetExistingPublicKey(kc) == Success(None) && r.reply.Value? ==>
      gen.Created? && gen.publicKey.Some? && ExportPublicKey(gen.publicKey.value) == Success(r.reply.text)
    ensures GetExistingPublicKey(kc) == Success(None) && GenerateRSAKeyPair(kc, gen).publicKey.Failure? ==>
      r.reply == KeyError(GenerateRSAKeyPair(kc, gen).publicKey.error)
    ensures r.reply.Value? || r.reply.FlutterError?
    ensures r.reply.FlutterError? ==> r.reply.code == "KEY_ERROR"
    ensures r.reply.Value? ==>
      && HasIosTag(r.reply.text)
      && Base64.Decode(r.reply.text[|IosRawTag|..]).Some?
      && (PublicKeyClass in r.keychain.items ==>
            r.keychain.items[PublicKeyClass].external == Success(Base64.Decode(r.reply.text[|IosRawTag|..]).value))
  {
    match GetExistingPublicKey(kc)
    case Failure(e) => Handled(kc, KeyError(e))
    case Success(Some(key)) => Handled(kc, Value(key))
    case Success(None) =>
      var g := GenerateRSAKeyPair(kc, gen);
      match g.publicKey
      case Success(key) => Handled(g.keychain, Value(key))
      case Failure(e) => Handled(g.keychain, KeyError(e))
  }

  // ---------------------------------------------------------------------------------------
  // Delete
  // ---------------------------------------------------------------------------------------

  /** The keychain after `deleteKeyPair` and whether it threw. */
  datatype Deleted = Deleted(keychain: Keychain, outcome: Outcome<KeychainError>)

  /** `deleteKeyPair`: deletes the private key, then the public key; a missing item is not an
      error, and a failure on the private key stops before the public key is touched. */
  function DeleteKeyPair(kc: Keychain): (r: Deleted)
    ensures r.keychain.faults == kc.faults
    ensures r.outcome.Pass? <==> PrivateKeyClass !in kc.faults && PublicKeyClass !in kc.faults
    ensures r.outcome.Pass? ==> r.keychain.items == map[]
    ensures PrivateKeyClass in kc.faults ==>
      r == Deleted(kc, Fail(FailedToDeletePrivateKey(kc.faults[PrivateKeyClass])))
    ensures PrivateKeyClass !in kc.faults && PublicKeyClass in kc.faults ==>
      && r.outcome == Fail(FailedToDeletePublicKey(kc.faults[PublicKeyClass]))
      && r.keychain.items == kc.items - {PrivateKeyClass}
  {
    var first := DeleteItem(kc, PrivateKeyClass);
    if first.status != ErrSecSuccess && first.status != ErrSecItemNotFound then
      Deleted(first.keychain, Fail(FailedToDeletePrivateKey(first.status)))
    else
      var second := DeleteItem(first.keychain, PublicKeyClass);
      if second.status != ErrSecSuccess && second.status != ErrSecItemNotFound then
        Deleted(second.keychain, Fail(FailedToDeletePublicKey(second.status)))
      else
        NoClassLeft(kc.items, second.keychain.items);
        Deleted(second.keychain, Pass)
  }

  /** Removing both key classes leaves no item. */
  lemma NoClassLeft(before: map<KeyClass, SecKey>, after: map<KeyClass, SecKey>)
    requires after == before - {PrivateKeyClass} - {PublicKeyClass}
    ensures after == map[]
  {
    forall c: KeyClass
      ensures c !in after
    {
      if c.PrivateKeyClass? {
        assert c == PrivateKeyClass;
      } else {
        assert c == PublicKeyClass;
      }
    }
  }

  /** `handleDeleteKey`: `nil` on success, otherwise the error. */
  function HandleDeleteKey(kc: Keychain): (r: Handled)
    ensures r.keychain == DeleteKeyPair(kc).keychain
    ensures r.reply == NullValue <==> PrivateKeyClass !in kc.faults && PublicKeyClass !in kc.faults
    ensures r.reply != NullValue ==>
      r.reply == FlutterError("DELETE_ERROR", "Failed to delete key: " + DeleteKeyPair(kc).outcome.error.Description())
  {
    var d := DeleteKeyPair(kc);
    match d.outcome
    case Pass => Handled(d.keychain, NullValue)
    case Fail(e) => Handled(d.keychain, FlutterError("DELETE_ERROR", "Failed to delete key: " + e.Description()))
  }

  // ---------------------------------------------------------------------------------------
  // Decrypt
  // ---------------------------------------------------------------------------------------

  /** The `SecKeyAlgorithm` values for RSA encryption. */
  datatype Algorithm =
    | RsaEncryptionRaw
    | RsaEncryptionPkcs1
    | RsaEncryptionOaepSha1
    | RsaEncryptionOaepSha256

  /** `SecKeyCreateDecryptedData`, including the biometric prompt the private key's access
      control raises: the plaintext, or the description of the error, if any. */
  type Decryptor = (SecKey, Algorithm, seq<byte>) -> Result<seq<byte>, Option<string>>

  /** `String(data:encoding: .utf8)`, which is `nil` for malformed UTF-8. */
  type Utf8Decoder = seq<byte> -> Option<string>

  /** The keychain gives out the private key: a query for it succeeds. */
  predicate HasPrivateKey(kc: Keychain)
  {
    PrivateKeyClass !in kc.faults && PrivateKeyClass in kc.items
  }

  /** The body of `handleDecryptSecret`: fetch the private key, decode the base64, decrypt
      with PKCS #1 v1.5, decode UTF-8, failing at the first step that fails. */
  function DecryptSecret(kc: Keychain, encryptedSecret: string, decrypt: Decryptor, utf8: Utf8Decoder): (r: Result<string, KeychainError>)
    ensures PrivateKeyClass in kc.faults ==> r == Failure(FailedToRetrievePrivateKey(kc.faults[PrivateKeyClass]))
    ensures !HasPrivateKey(kc) && PrivateKeyClass !in kc.faults ==>
      r == Failure(FailedToRetrievePrivateKey(ErrSecItemNotFound))
    ensures HasPrivateKey(kc) && Base64.Decode(encryptedSecret).None? ==> r == Failure(InvalidBase64Data)
    ensures HasPrivateKey(kc) && Base64.Decode(encryptedSecret).Some? ==>
      var attempt := decrypt(kc.items[PrivateKeyClass], RsaEncryptionPkcs1, Base64.Decode(encryptedSecret).value);
      && (attempt.Failure? ==> r == Failure(FailedToDecrypt(attempt.error)))
      && (attempt.Success? && utf8(attempt.value).None? ==> r == Failure(FailedToDecodeDecryptedData))
      && (attempt.Success? && utf8(attempt.value).Some? ==> r == Success(utf8(attempt.value).value))
    ensures r.Success? ==>
      && HasPrivateKey(kc)
      && Base64.Decode(encryptedSecret).Some?
      && decrypt(kc.items[PrivateKeyClass], RsaEncryptionPkcs1, Base64.Decode(encryptedSecret).value).Success?
      && utf8(decrypt(kc.items[PrivateKeyClass], RsaEncryptionPkcs1, Base64.Decode(encryptedSecret).value).value)
         == Some(r.value)
  {
    var q := CopyMatching(kc, PrivateKeyClass);
    if !(q.status == ErrSecSuccess && q.item.Some?) then Failure(FailedToRetrievePrivateKey(q.status))
    else match Base64.Decode(encryptedSecret)
      case None => Failure(InvalidBase64Data)
      case Some(encrypted) =>
        match decrypt(q.item.value, RsaEncryptionPkcs1, encrypted)
        case Failure(cause) => Failure(FailedToDecrypt(cause))
        case Success(plain) =>
          match utf8(plain)
          case None => Failure(FailedToDecodeDecryptedData)
          case Some(text) => Success(text)
  }

  /** The reply for an error thrown by `decryptSecret`. */
  function DecryptError(e: KeychainError): Reply
  {
    FlutterError("DECRYPT_ERROR", "Failed to decrypt secret: " + e.Description())
  }

  /** `handleDecryptSecret`: the decrypted text when the private key is there, the argument
      is base64, PKCS #1 v1.5 decryption succeeds and the octets are UTF-8; otherwise a
      DECRYPT_ERROR naming the step that failed. */
  function HandleDecryptSecret(kc: Keychain, encryptedSecret: string, decrypt: Decryptor, utf8: Utf8Decoder): (r: Reply)
    ensures PrivateKeyClass in kc.faults ==>
      r == FlutterError("DECRYPT_ERROR", "Failed to decrypt secret: "
             + StatusText("Failed to retrieve private key from keychain", kc.faults[PrivateKeyClass]))
    ensures !HasPrivateKey(kc) && PrivateKeyClass !in kc.faults ==>
      r == FlutterError("DECRYPT_ERROR", "Failed to decrypt secret: "
             + StatusText("Failed to retrieve private key from keychain", ErrSecItemNotFound))
    ensures HasPrivateKey(kc) && Base64.Decode(encryptedSecret).None? ==>
      r == FlutterError("DECRYPT_ERROR", "Failed to decrypt secret: " + "Invalid base64 encrypted data")
    ensures HasPrivateKey(kc) && Base64.Decode(encryptedSecret).Some? ==>
      var attempt := decrypt(kc.items[PrivateKeyClass], RsaEncryptionPkcs1, Base64.Decode(encryptedSecret).value);
      && (attempt.Failure? ==>
            r == DecryptError(FailedToDecrypt(attempt.error)))
      && (attempt.Success? && utf8(attempt.value).None? ==>
            r == DecryptError(FailedToDecodeDecryptedData))
    ensures r.Value? <==>
      && HasPrivateKey(kc)
      && Base64.Decode(encryptedSecret).Some?
      && decrypt(kc.items[PrivateKeyClass], RsaEncryptionPkcs1, Base64.Decode(encryptedSecret).value).Success?
      && utf8(decrypt(kc.items[PrivateKeyClass], RsaEncryptionPkcs1, Base64.Decode(encryptedSecret).value).value).Some?
    ensures r.Value? ==>
      Some(r.text) == utf8(decrypt(kc.items[PrivateKeyClass], RsaEncryptionPkcs1, Base64.Decode(encryptedSecret).value).value)
    ensures !r.Value? ==> r.FlutterError? && r.code == "DECRYPT_ERROR"
  {
    var q := CopyMatching(kc, PrivateKeyClass);
    if q.item.None? then DecryptError(FailedToRetrievePrivateKey(q.status))
    else match Base64.Decode(encryptedSecret)
      case None => DecryptError(InvalidBase64Data)
      case Some(encrypted) =>
        match decrypt(q.item.value, RsaEncryptionPkcs1, encrypted)
        case Failure(cause) => DecryptError(FailedToDecrypt(cause))
        case Success(plain) =>
          match utf8(plain)
          case None => DecryptError(FailedToDecodeDecryptedData)
          case Some(text) => Value(text)
  }

  // ---------------------------------------------------------------------------------------
  // Method channel
  // ---------------------------------------------------------------------------------------

  datatype ArgumentValue = StringArgument(text: string) | OtherArgument

  /** `call.arguments`: a string-keyed dictionary, or anything else. */
  datatype Arguments = Dictionary(entries: map<string, ArgumentValue>) | OtherArguments

  datatype MethodCall = MethodCall(name: string, arguments: Arguments)

  /** The Security framework's answers for one method call. */
  datatype Platform = Platform(generate: Generation, decrypt: Decryptor, utf8: Utf8Decoder)

  const MethodNames: set<string> := {"getPublicKey", "decryptSecret", "deleteKey"}

  /** `handleKeyMethod`: the channel's three methods; any other method is not implemented and
      changes nothing, and decryption never changes the keychain. */
  function HandleKeyMethod(kc: Keychain, call: MethodCall, platform: Platform): (r: Handled)
    ensures r.reply == MethodNotImplemented <==> call.name !in MethodNames
    ensures call.name !in MethodNames ==> r.keychain == kc
    ensures call.name == "getPublicKey" ==> r == HandleGetPublicKey(kc, platform.generate)
    ensures call.name == "deleteKey" ==> r == HandleDeleteKey(kc)
    ensures call.name == "decryptSecret" ==> r.keychain == kc
    ensures call.name == "decryptSecret" ==>
      (r.reply == FlutterError("INVALID_ARGUMENTS", "Missing encryptedSecret") <==>
        !(call.arguments.Dictionary? && "encryptedSecret" in call.arguments.entries
          && call.arguments.entries["encryptedSecret"].StringArgument?))
    ensures (call.name == "decryptSecret" && call.arguments.Dictionary?
             && "encryptedSecret" in call.arguments.entries
             && call.arguments.entries["encryptedSecret"].StringArgument?) ==>
      r.reply == HandleDecryptSecret(kc, call.arguments.entries["encryptedSecret"].text, platform.decrypt, platform.utf8)
  {
    if call.name == "getPublicKey" then HandleGetPublicKey(kc, platform.generate)
    else if call.name == "decryptSecret" then
      var args := call.arguments;
      if args.Dictionary? && "encryptedSecret" in args.entries && args.entries["encryptedSecret"].StringArgument? then
        Handled(kc, HandleDecryptSecret(kc, args.entries["encryptedSecret"].text, platform.decrypt, platform.utf8))
      else Handled(kc, FlutterError("INVALID_ARGUMENTS", "Missing encryptedSecret"))
    else if call.name == "deleteKey" then HandleDeleteKey(kc)
    else Handled(kc, MethodNotImplemented)
  }

  // ---------------------------------------------------------------------------------------
  // Lemmas
  // ---------------------------------------------------------------------------------------

  /** Distinct statuses give distinct messages: the status can be read back from the text. */
  lemma StatusTextIsInjective(message: string, s1: OSStatus, s2: OSStatus)
    requires StatusText(message, s1) == StatusText(message, s2)
    ensures s1 == s2
  {
    var prefix := message + " (status: ";
    var d1, d2 := Decimal.IntToDecimal(s1), Decimal.IntToDecimal(s2);
    assert StatusText(message, s1) == prefix + d1 + ")";
    assert StatusText(message, s2) == prefix + d2 + ")";
    assert |d1| == |d2|;
    assert d1 == StatusText(message, s1)[|prefix|..|prefix| + |d1|];
    assert d2 == StatusText(message, s2)[|prefix|..|prefix| + |d2|];
    Decimal.IntToDecimalInjective(s1, s2);
  }

  /** Once a public key has been handed out and the keychain can find it, every later
      `getPublicKey` hands out the same text and generates nothing. */
  lemma GetPublicKeyIsStable(kc: Keychain, first: Generation, second: Generation)
    requires HandleGetPublicKey(kc, first).reply.Value?
    requires PublicKeyClass in HandleGetPublicKey(kc, first).keychain.items
    ensures var once := HandleGetPublicKey(kc, first);
      HandleGetPublicKey(once.keychain, second) == once
  {
  }

  /** When the keychain does not keep the generated public key, the next `getPublicKey`
      finds nothing and generates another key pair. */
  lemma UnstoredPublicKeyIsRegenerated(kc: Keychain, privateKey: SecKey, publicKey: SecKey)
    requires PublicKeyClass !in kc.faults && PublicKeyClass !in kc.items
    ensures var once := HandleGetPublicKey(kc, Created(privateKey, Some(publicKey), false));
      GetExistingPublicKey(once.keychain) == Success(None)
  {
  }

  /** A successful delete leaves nothing to delete: a second delete succeeds and changes
      nothing. */
  lemma DeleteKeyPairIsIdempotent(kc: Keychain)
    requires DeleteKeyPair(kc).outcome.Pass?
    ensures DeleteKeyPair(DeleteKeyPair(kc).keychain) == DeleteKeyPair(kc)
  {
  }

  /** After a successful delete, `getPublicKey` generates a fresh key pair and decryption
      fails because the private key is gone. */
  lemma DeleteThenRegenerate(kc: Keychain, secret: string, decrypt: Decryptor, utf8: Utf8Decoder)
    requires DeleteKeyPair(kc).outcome.Pass?
    ensures GetExistingPublicKey(DeleteKeyPair(kc).keychain) == Success(None)
    ensures DecryptSecret(DeleteKeyPair(kc).keychain, secret, decrypt, utf8)
         == Failure(FailedToRetrievePrivateKey(ErrSecItemNotFound))
  {
  }

  /** Decryption depends on the Security framework only through PKCS #1 v1.5: no other
      algorithm is ever tried. */
  lemma DecryptUsesOnlyPkcs1(kc: Keychain, secret: string, d1: Decryptor, d2: Decryptor, utf8: Utf8Decoder)
    requires forall key, data :: d1(key, RsaEncryptionPkcs1, data) == d2(key, RsaEncryptionPkcs1, data)
    ensures DecryptSecret(kc, secret, d1, utf8) == DecryptSecret(kc, secret, d2, utf8)
  {
  }

  /** `handleDecryptSecret` is `decryptSecret` with its result or thrown error turned into
      the channel's reply. */
  lemma HandleDecryptSecretCatches(kc: Keychain, secret: string, decrypt: Decryptor, utf8: Utf8Decoder)
    ensures var outcome := DecryptSecret(kc, secret, decrypt, utf8);
      && (outcome.Success? ==> HandleDecryptSecret(kc, secret, decrypt, utf8) == Value(outcome.value))
      && (outcome.Failure? ==> HandleDecryptSecret(kc, secret, decrypt, utf8) == DecryptError(outcome.error))
  {
    var q := CopyMatching(kc, PrivateKeyClass);
    if q.item.Some? {
      match Base64.Decode(secret)
      case None =>
      case Some(encrypted) =>
        match decrypt(q.item.value, RsaEncryptionPkcs1, encrypted)
        case Failure(_) =>
        case Success(plain) =>
    }
  }
}

=== FILE: key_format.dfy ===
/** The one convention the two device platforms and the server share about key text: an iOS
    device puts a fixed marker in front of the base64 of its raw key, an Android device sends
    the base64 of its SubjectPublicKeyInfo with no marker. */
module KeyFormat {
  /** The marker an iOS device puts in front of its raw key. */
  const IosRawTag: string := "IOS_RAW:"

  /** The key text starts with the iOS marker (JavaScript's `startsWith('IOS_RAW:')`). */
  predicate HasIosTag(key: string)
  {
    |key| >= |IosRawTag| && key[..|IosRawTag|] == IosRawTag
  }

  /** Whatever follows the marker, the text carries it and loses exactly the marker when
      its first eight characters are removed. */
  lemma TaggedKey(body: string)
    ensures HasIosTag(IosRawTag + body)
    ensures (IosRawTag + body)[|IosRawTag|..] == body
  {
    assert (IosRawTag + body)[..|IosRawTag|] == IosRawTag;
  }
}

=== FILE: pem.dfy ===
/** The PEM armour the server puts around a DER public key (section 2 and section 13 of
    RFC 7468): the base64 text split into lines of at most 64 characters by the global match
    `/.{1,64}/g`, joined with line feeds, between the PUBLIC KEY header and footer. */
module Pem {
  import opened Wrappers
  import opened Bytes
  import Base64

  const LineWidth: nat := 64
  const Header: string := "-----BEGIN PUBLIC KEY-----\n"
  const Footer: string := "-----END PUBLIC KEY-----\n"

  /** The matches of `/.{1,64}/g` on a text without line terminators: consecutive runs of 64
      characters and a final shorter run. */
  function Lines(s: string): (lines: seq<string>)
    ensures s == [] <==> lines == []
    decreases |s|
  {
    if |s| == 0 then []
    else if |s| <= LineWidth then [s]
    else [s[..LineWidth]] + Lines(s[LineWidth..])
  }

  /** The lines concatenated. */
  function Concat(lines: seq<string>): string
  {
    if |lines| == 0 then [] else lines[0] + Concat(lines[1..])
  }

  /** `lines.join('\n')`. */
  function JoinLines(lines: seq<string>): string
  {
    if |lines| == 0 then []
    else if |lines| == 1 then lines[0]
    else lines[0] + "\n" + JoinLines(lines[1..])
  }

  /** No line of `lines` holds a line feed. */
  predicate NoLineFeeds(lines: seq<string>)
  {
    forall i, j :: 0 <= i < |lines| && 0 <= j < |lines[i]| ==> lines[i][j] != '\n'
  }

  /** The text with every line feed removed. */
  function RemoveLineFeeds(s: string): (r: string)
    ensures forall i :: 0 <= i < |r| ==> r[i] != '\n'
  {
    if |s| == 0 then []
    else if s[0] == '\n' then RemoveLineFeeds(s[1..])
    else [s[0]] + RemoveLineFeeds(s[1..])
  }

  datatype PemError =
    /** `match` found no line in an empty text and returned `null`; calling `join` on it
        throws a TypeError. */
    | NoMatch

  /** The armour of `derBytes.toString('base64').match(/.{1,64}/g).join('\n')` between the
      header and footer. It fails only when there is nothing to encode. */
  function Armor(der: seq<byte>): (r: Result<string, PemError>)
    ensures r.Success? <==> |der| > 0
    ensures r.Success? ==> |r.value| > |Header| + |Footer| + 1
    ensures r.Success? ==> r.value[..|Header|] == Header
    ensures r.Success? ==> r.value[|r.value| - |Footer| - 1..] == "\n" + Footer
  {
    var text := Base64.Encode(der);
    Base64.EncodeLength(der);
    if |text| == 0 then Failure(NoMatch)
    else
      var body := JoinLines(Lines(text));
      JoinLinesNonEmpty(Lines(text));
      Success(Header + body + "\n" + Footer)
  }

  /** Strips the armour: checks the header and the footer, drops the line feeds in between,
      and decodes the base64 canonically. */
  function Dearmor(pem: string): Option<seq<byte>>
  {
    if |pem| < |Header| + |Footer| || pem[..|Header|] != Header || pem[|pem| - |Footer|..] != Footer then None
    else Base64.Decode(RemoveLineFeeds(pem[|Header|..|pem| - |Footer|]))
  }

  // ---------------------------------------------------------------------------------------
  // Lemmas
  // ---------------------------------------------------------------------------------------

  /** Every line holds between 1 and 64 characters, every line but the last exactly 64, and
      together they spell the text. */
  lemma {:induction false} LinesShape(s: string)
    ensures Concat(Lines(s)) == s
    ensures forall i :: 0 <= i < |Lines(s)| ==> 1 <= |Lines(s)[i]| <= LineWidth
    ensures forall i :: 0 <= i < |Lines(s)| - 1 ==> |Lines(s)[i]| == LineWidth
    ensures |Lines(s)| == (|s| + LineWidth - 1) / LineWidth
    decreases |s|
  {
    if |s| > LineWidth {
      var rest := s[LineWidth..];
      LinesShape(rest);
      var lines := Lines(s);
      assert lines[1..] == Lines(rest);
      assert s == s[..LineWidth] + rest;
      forall i | 0 <= i < |lines|
        ensures 1 <= |lines[i]| <= LineWidth
        ensures i < |lines| - 1 ==> |lines[i]| == LineWidth
      {
        if i > 0 {
          assert lines[i] == Lines(rest)[i - 1];
        }
      }
    }
  }

  lemma JoinLinesNonEmpty(lines: seq<string>)
    requires lines != []
    requires lines[0] != []
    ensures |JoinLines(lines)| > 0
  {
  }

  /** Lines that hold no line feed come back unchanged once the joining line feeds are
      removed. */
  lemma {:induction false} RemoveLineFeedsJoin(lines: seq<string>)
    requires NoLineFeeds(lines)
    ensures RemoveLineFeeds(JoinLines(lines)) == Concat(lines)
    decreases |lines|
  {
    if |lines| == 1 {
      RemoveLineFeedsPlain(lines[0]);
      assert Concat(lines) == lines[0] + Concat([]);
    } else if |lines| > 1 {
      var tail := lines[1..];
      forall i, j | 0 <= i < |tail| && 0 <= j < |tail[i]|
        ensures tail[i][j] != '\n'
      {
        assert tail[i] == lines[i + 1];
      }
      RemoveLineFeedsJoin(tail);
      assert JoinLines(lines) == lines[0] + ("\n" + JoinLines(tail));
      RemoveLineFeedsAppend(lines[0], "\n" + JoinLines(tail));
      RemoveLineFeedsPlain(lines[0]);
      assert ("\n" + JoinLines(tail))[1..] == JoinLines(tail);
      assert RemoveLineFeeds("\n" + JoinLines(tail)) == RemoveLineFeeds(JoinLines(tail));
    }
  }

  lemma {:induction false} RemoveLineFeedsPlain(s: string)
    requires forall j :: 0 <= j < |s| ==> s[j] != '\n'
    ensures RemoveLineFeeds(s) == s
    decreases |s|
  {
    if |s| > 0 {
      RemoveLineFeedsPlain(s[1..]);
      assert s == [s[0]] + s[1..];
    }
  }

  lemma {:induction false} RemoveLineFeedsAppend(a: string, b: string)
    ensures RemoveLineFeeds(a + b) == RemoveLineFeeds(a) + RemoveLineFeeds(b)
    decreases |a|
  {
    if |a| > 0 {
      assert (a + b)[1..] == a[1..] + b;
      RemoveLineFeedsAppend(a[1..], b);
    } else {
      assert a + b == b;
    }
  }

  /** The lines of a base64 text contain no line feed. */
  lemma LinesOfBase64(der: seq<byte>)
    ensures NoLineFeeds(Lines(Base64.Encode(der)))
  {
    var text := Base64.Encode(der);
    Base64.EncodeAlphabet(der);
    LinesNoLineFeed(text);
  }

  lemma {:induction false} LinesNoLineFeed(s: string)
    requires forall k :: 0 <= k < |s| ==> s[k] != '\n'
    ensures NoLineFeeds(Lines(s))
    decreases |s|
  {
    if |s| > LineWidth {
      LinesNoLineFeed(s[LineWidth..]);
      var lines := Lines(s);
      forall i, j | 0 <= i < |lines| && 0 <= j < |lines[i]|
        ensures lines[i][j] != '\n'
      {
        if i == 0 {
          assert lines[0][j] == s[j];
        } else {
          assert lines[i] == Lines(s[LineWidth..])[i - 1];
        }
      }
    }
  }

  /** Removing the armour gives back exactly the DER it was built from. */
  lemma DearmorArmor(der: seq<byte>)
    requires |der| > 0
    ensures Dearmor(Armor(der).value) == Some(der)
  {
    var text := Base64.Encode(der);
    var lines := Lines(text);
    var body := JoinLines(lines);
    var pem := Armor(der).value;
    assert pem == Header + (body + "\n") + Footer;
    assert pem[..|Header|] == Header;
    assert pem[|pem| - |Footer|..] == Footer;
    assert pem[|Header|..|pem| - |Footer|] == body + "\n";
    LinesOfBase64(der);
    RemoveLineFeedsJoin(lines);
    LinesShape(text);
    RemoveLineFeedsAppend(body, "\n");
    assert RemoveLineFeeds("\n") == [];
    assert RemoveLineFeeds(body + "\n") == text;
    Base64.DecodeEncode(der);
  }
}

=== FILE: server.dfy ===
/** The registration server (`server_debug.js`): the two public-key conversions to PEM and
    the `/register` handler that picks one by the `IOS_RAW:` tag and encrypts the secret with
    PKCS #1 v1.5 padding. */
module Server {
  import opened Wrappers
  import opened Bytes
  import Base64
  import Der
  import Pem
  import opened KeyFormat

  /** The secret every registration protects, and its UTF-8 octets. */
  const SecretToProtect: string := "Super sensivel key"
  const SecretBytes: seq<byte> :=
    [0x53, 0x75, 0x70, 0x65, 0x72, 0x20, 0x73, 0x65, 0x6e, 0x73, 0x69, 0x76, 0x65, 0x6c, 0x20, 0x6b, 0x65, 0x79]

  /** Padding options of `crypto.publicEncrypt`. */
  datatype Padding =
    | Pkcs1Padding
    | OaepPadding(oaepHash: Option<string>, mgf1Hash: Option<string>)

  /** `crypto.publicEncrypt(pem, padding, data)`: the ciphertext, or `None` when it throws
      (a PEM it cannot parse, a message too long for the key). */
  type Encryptor = (string, Padding, seq<byte>) -> Option<seq<byte>>

  /** `androidBase64ToPem`: decode and re-encode, with no check that the octets are a key. */
  function AndroidBase64ToPem(androidBase64: string): (r: Result<string, Pem.PemError>)
    ensures r.Success? <==> |Base64.LenientDecode(androidBase64)| > 0
    ensures r.Success? ==> Pem.Dearmor(r.value) == Some(Base64.LenientDecode(androidBase64))
  {
    var der := Base64.LenientDecode(androidBase64);
    if |der| > 0 then Pem.DearmorArmor(der); Pem.Armor(der) else Pem.Armor(der)
  }

  /** `iosRawToPem`: the raw key wrapped as a SubjectPublicKeyInfo and armoured. Any DER
      reader finds the raw key again inside, as long as the 16-bit lengths do not truncate. */
  function IosRawToPem(rawKeyBase64: string): (pem: string)
    ensures |Base64.LenientDecode(rawKeyBase64)| <= 65515 ==>
      && Pem.Dearmor(pem).Some?
      && Der.ParseSpki(Pem.Dearmor(pem).value) == Some(Base64.LenientDecode(rawKeyBase64))
  {
    var raw := Base64.LenientDecode(rawKeyBase64);
    var der := Der.SpkiFromRaw(raw);
    Pem.DearmorArmor(der);
    if |raw| <= 65515 then Der.ParseSpkiFromRaw(raw); Pem.Armor(der).value else Pem.Armor(der).value
  }

  /** The format dispatch of `/register`: a tagged key loses exactly its eight tag characters
      and goes through the iOS conversion; every other key through the Android one. */
  function KeyToPem(key: string): (r: Result<string, Pem.PemError>)
    ensures HasIosTag(key) ==> r.Success?
    ensures HasIosTag(key) && |Base64.LenientDecode(key[8..])| <= 65515 ==>
      && Pem.Dearmor(r.value).Some?
      && Der.ParseSpki(Pem.Dearmor(r.value).value) == Some(Base64.LenientDecode(key[8..]))
    ensures !HasIosTag(key) ==> (r.Success? <==> |Base64.LenientDecode(key)| > 0)
    ensures !HasIosTag(key) && r.Success? ==> Pem.Dearmor(r.value) == Some(Base64.LenientDecode(key))
  {
    if HasIosTag(key) then Success(IosRawToPem(key[|IosRawTag|..]))
    else AndroidBase64ToPem(key)
  }

  /** The `publicKeyBase64` member of the JSON body. */
  datatype KeyField =
    | Missing
    | Text(text: string)
    /** A number, boolean, array or object, with JavaScript's truthiness. */
    | NonText(truthy: bool)

  /** JavaScript's `!publicKeyBase64`. */
  predicate Falsy(field: KeyField)
  {
    field.Missing? || field == Text("") || field == NonText(false)
  }

  datatype Response =
    | Registered(encryptedBase64: string)
    | KeyRequired
    | ServerError
  {
    function Status(): nat
    {
      match this
      case Registered(_) => 200
      case KeyRequired => 400
      case ServerError => 500
    }
  }

  /** `POST /register`. A falsy key is refused before any conversion. A truthy non-string
      fails on its first string method call. Otherwise the PEM of the dispatched conversion
      receives the secret under PKCS #1 v1.5 padding, whichever platform sent the key, and the
      ciphertext is returned in base64. Any exception becomes a 500. */
  function Register(field: KeyField, encrypt: Encryptor): (r: Response)
    ensures r == KeyRequired <==> Falsy(field)
    ensures r.Status() == 400 <==> Falsy(field)
    ensures field == NonText(true) ==> r == ServerError
    ensures field.Text? && field.text != [] ==>
      (r.Registered? <==>
        KeyToPem(field.text).Success? && encrypt(KeyToPem(field.text).value, Pkcs1Padding, SecretBytes).Some?)
    ensures r.Registered? ==>
      && field.Text?
      && KeyToPem(field.text).Success?
      && Base64.Decode(r.encryptedBase64) == encrypt(KeyToPem(field.text).value, Pkcs1Padding, SecretBytes)
  {
    match field
    case Missing => KeyRequired
    case NonText(truthy) => if truthy then ServerError else KeyRequired
    case Text(key) =>
      if key == [] then KeyRequired
      else match KeyToPem(key)
        case Failure(_) => ServerError
        case Success(pem) =>
          match encrypt(pem, Pkcs1Padding, SecretBytes)
          case None => ServerError
          case Some(ciphertext) =>
            Base64.DecodeEncode(ciphertext);
            Registered(Base64.Encode(ciphertext))
  }

  /** The secret's octets are the ASCII codes of its characters. */
  lemma SecretBytesAreAscii()
    ensures |SecretBytes| == |SecretToProtect| == 18
    ensures forall i :: 0 <= i < |SecretBytes| ==> SecretBytes[i] == SecretToProtect[i] as int < 128
  {
  }

  /** The response depends on the encryptor only through PKCS #1 v1.5: what the other
      paddings would give is never used. */
  lemma RegisterUsesOnlyPkcs1(field: KeyField, e1: Encryptor, e2: Encryptor)
    requires forall pem, data :: e1(pem, Pkcs1Padding, data) == e2(pem, Pkcs1Padding, data)
    ensures Register(field, e1) == Register(field, e2)
  {
  }
}

=== FILE: wrappers.dfy ===
/** Failure-carrying result types shared by every module of the model. */
module Wrappers {

  /** A value that may be absent (a JavaScript `null`, a Swift `nil`). */
  datatype Option<+T> = None | Some(value: T)

  /** A computation that either returns a value or throws an error. */
  datatype Result<+R, +E> = Success(value: R) | Failure(error: E)

  /** A computation that returns nothing on success (a Swift `throws -> Void`). */
  datatype Outcome<+E> = Pass | Fail(error: E)
}

/** Octets and octet strings. */
module Bytes {

  type byte = x: int | 0 <= x < 256

  /** The last element of a non-empty sequence. */
  function Last<T>(s: seq<T>): T
    requires |s| > 0
  {
    s[|s| - 1]
  }
}
